=== FILE: README.md ===
# commentman in Dafny

A model of the core of *commentman*, a small PHP comment manager that keeps
blog comments in one SQLite table and shows them as reply threads. It has two
pieces:

- **The `Comment` object** (`Comment.php`). It is a record of nine loosely
  typed properties with these operations:
  - a getter that answers `null` for unknown names;
  - a trimming setter that silently ignores unknown names;
  - `prepare`, which sanitises `username` and `message`;
  - `toArray`, which adds a `children => null` slot;
  - a fixed-order `__toString`.
- **`CommentMan`** (`CommentMan.php`). Each SQL statement is read as its
  meaning over an in-memory table:
  - `add`;
  - the four deletes `rem_by_id`, `rem_by_name`, `rem_newer_than` and
    `rem_older_than`;
  - `length`, `fetch_by_id`, `fetch_by_post` and `fetch_thread`;
  - the recursive `build_thread`, which turns the flat, ordered list of a
    post's comments into a tree keyed by comment id.

Modules, one per file:

| file | module | what it holds |
|---|---|---|
| `wrappers.dfy` | `Wrappers` | `Option` |
| `strings.dfy` | `Strings` | PHP `trim`, the decimal form of integers, joining strings |
| `comment.dfy` | `Comments` | the `Comment` object; a PHP scalar is `Value = Null \| Int \| Str` |
| `rows.dfy` | `Rows` | a stored row; how `fetch_by_id` turns a row into a `Comment` |
| `thread.dfy` | `Thread` | `build_thread` |
| `store.dfy` | `Store` | the table and the `CommentMan` operations on it |

**The thread builder.** PHP's ordered arrays become `seq<(int, Node)>`. A node
holds a row and an optional `children` level. PHP's recursion has no bound, so
`Thread.Build` carries a recursion budget:
- `None` means only that the budget ran out. For a root comment with id 0
  no budget suffices, and the PHP call recurses forever
  (`Thread.RootIdZeroDiverges`).
- `ThreadOf(cs)` gives the budget `|cs| + 1`.
- `FuelMonotone` shows that once the result exists, more budget changes
  nothing. So whenever `ThreadOf` returns a thread, that thread is the PHP
  result.

A position in the tree is a path of keys, read with `Thread.At`. The proofs go
through ancestor chains. A path from the root spells the chain of parent ids
that ends at its node. The chain is determined by its last id, and with
distinct, non-zero ids it never repeats an id. So:
- every comment sits at no more than one position;
- the depth is at most the length of the list;
- the recursion ends.

**The table.** It is the rows in rowid order plus the last id handed out (the
`sqlite_sequence` counter of an `AUTOINCREMENT` key). The clock is a parameter
`now`, and times and durations are whole seconds. `Store.Valid` says that ids
are positive, increasing, and no larger than the counter. Every operation
preserves it.

Properties of the code worth knowing:
- The model assumes nothing of the sanitiser `filter_var`. When the
  sanitiser leaves its own output alone, as an HTML encoder that does not
  re-encode existing entities does, a second `prepare` changes nothing
  (`Comments.PrepareIdempotent`).
- `rem_newer_than(0)` removes only the rows stamped at or after `now`
  (`Store.ZeroDuration`).
- `fetch_thread` ignores its `limit`, against its own doc comment (see
  Findings).

## Model

| member | source | states |
|---|---|---|
| `Strings.Trim` | Comment.php:54 | The result has no PHP whitespace (space, tab, newline, carriage return, NUL, vertical tab) at either end. The input is the result with only whitespace added before and after. |
| `Strings.TrimUnique` | Comment.php:54 | Independent characterisation: any whitespace-free-ended core that pads out to `s` with whitespace is exactly `Trim(s)`. |
| `Strings.TrimIdempotent` | Comment.php:54 | Trimming twice is trimming once. |
| `Strings.IntToString` | Comment.php:54 | PHP's decimal form of an integer: a leading `-` exactly for negatives, then digits with no leading zero, and never any surrounding whitespace. |
| `Strings.IntRoundTrip` | Comment.php:54 | Reading back the decimal form of any integer gives that integer. |
| `Comments.FieldNamed` | Comment.php:45 | `property_exists`: a found property is spelled as the name, and when none is found no property has that name. |
| `Comments.DeclaredIsComplete` | Comment.php:32-40 | Every one of the nine properties is in the declaration order, and no two of them share a name. |
| `Comments.Get` | Comment.php:44-48 | `__get` returns the stored value of the declared property with that name, and `null` for every undeclared name. |
| `Comments.Set` | Comment.php:52-57 | `__set` stores `trim` of the value, as a string, in the named property and leaves the other eight alone. An undeclared name leaves the object unchanged. |
| `Comments.SetThenGet` | Comment.php:44-57 | Set-then-get of a declared property yields the trimmed value, an undeclared name still reads `null`, and every other name reads as before. |
| `Comments.SetIsStable` | Comment.php:52-57 | A stored value has no surrounding whitespace, so setting a property to its own value changes nothing. |
| `Comments.Prepare` | Comment.php:68-73 | `username` and `message` become the sanitiser applied to their previous string form. The other seven properties are unchanged. |
| `Comments.PrepareIdempotent` | Comment.php:68-73 | With a sanitiser that leaves its own output alone, preparing twice gives the same object as preparing once. |
| `Comments.ToArray` | Comment.php:84-102 | The array has ten entries: the nine properties under their names in declaration order with their current values, then `children => null`. |
| `Comments.ToArrayAgreesWithGet` | Comment.php:84-102 | For every key, reading `toArray()` gives what `__get` gives: the property for a declared name, and `null` for `children` and every other key. |
| `Comments.ToString` | Comment.php:106-117 | The output is `"{ "`, then the nine properties' string forms in declaration order joined by `", "`, then `" }"`. Its length is their total length plus 20. |
| `Rows.Hydrate` | CommentMan.php:288-299 | Building a `Comment` from a row by nine `__set` calls leaves every property holding the trimmed column. |
| `Rows.HydrateIsFetched` | CommentMan.php:290-299 | The hydrated object holds, as strings, exactly the row with its text columns trimmed. Integer columns survive unchanged. |
| `Rows.FetchedIsStable` | CommentMan.php:290-299 | Fetching a fetched row again changes nothing. |
| `Thread.Put` | CommentMan.php:378 | Assigning a new key appends the entry. Assigning an existing key keeps the array's length. |
| `Thread.PutReplaces` | CommentMan.php:378 | Assigning an existing key replaces the value at that key's first place and leaves every other entry as it was. |
| `Thread.ChildrenSlot` | CommentMan.php:375-377 | The `children` slot is set exactly when the sub-thread is non-empty, and then it holds that sub-thread. |
| `Thread.Build` | CommentMan.php:367-384 | `build_thread($cs, $target)` with a recursion budget. Its contract is carried by `Thread.BuildShape` (the shape of one level), `Thread.FuelMonotone` (more budget changes nothing), and the path lemmas below. |
| `Thread.ThreadOf` | CommentMan.php:351 | The root call, with target 0 and budget one more than the list's length. It returns a thread whenever ids are distinct and non-zero, because every ancestor chain is shorter than the budget. `Thread.DepthBound`, `Thread.AtMostOnce`, `Thread.RootIsPlaced` and `Thread.ReplyIsPlaced` say what the thread holds. |
| `Thread.RepliesExact` | CommentMan.php:370-372 | The comments kept at one level are exactly those of the list whose parent id is the target. They keep list order and distinct ids. |
| `Thread.BuildShape` | CommentMan.php:367-384 | One level of the thread holds one entry per reply to the target, in list order. Each entry is keyed by the reply's id, holds the reply, and has `children` set exactly to the non-empty sub-thread built for that id. |
| `Thread.FuelMonotone` | CommentMan.php:373-374 | Once the recursion finishes within a budget, a larger budget gives the same thread. |
| `Thread.ThreadFinishes` | CommentMan.php:367-384 | With distinct, non-zero ids, building from the root always finishes. |
| `Thread.RootIdZeroDiverges` | CommentMan.php:372-374 | A top-level comment with id 0 makes the recursion target 0 again, and no budget suffices. |
| `Thread.ChainBound` | CommentMan.php:372-374 | An ancestor chain never repeats an id, so it is no longer than the list. |
| `Thread.Located` | CommentMan.php:367-384 | A node reached by a path is a comment of the list, keyed by its id. Its parent is the target at the top and the node one step up below that. Its `children` is the sub-thread built for its id. |
| `Thread.PathIsChain` | CommentMan.php:367-384 | The keys along a path spell the chain of parent ids that ends at the node. |
| `Thread.AtMostOnce` | CommentMan.php:367-384 | With distinct, non-zero ids, two positions holding the same comment are the same position. |
| `Thread.DepthBound` | CommentMan.php:367-384 | Every node holds a comment of the list, and the nesting is no deeper than the list is long. |
| `Thread.OrphanAbsent` | CommentMan.php:370-372 | A comment whose parent id is neither 0 nor the id of a comment in the tree appears nowhere in the tree. |
| `Thread.SelfParentAbsent` | CommentMan.php:370-374 | A comment naming itself as parent is never placed. |
| `Thread.RootIsPlaced` | CommentMan.php:370-378 | Every comment with parent id 0 sits at the top level under its own id. |
| `Thread.ReplyIsPlaced` | CommentMan.php:373-378 | Every comment whose parent is a node of the tree sits in that node's `children` under its own id. |
| `Thread.ReplyUnderRoot` | CommentMan.php:367-384 | A reply to a top-level comment sits one level down, at the path of the two ids. |
| `Store.Length` | CommentMan.php:118-125 | `SELECT COUNT(*)` counts every row: the number of rows that meet the always-true condition. How it changes is stated by `Store.Add` (one more) and `Store.Remove` (fewer by the number of matches). |
| `Store.Created` | CommentMan.php:149-164 | The freshly created table is empty and satisfies the table invariant. |
| `Store.Add` | CommentMan.php:180-196 | `add` appends exactly one row and leaves the earlier rows unchanged, so `length()` grows by one. The new row has a positive id above every existing id and above the counter, which advances to it. It holds the bound parent, post, username, message and ip, the insertion time, and both flags 0. The invariant is preserved. |
| `Store.IdsNotReused` | CommentMan.php:152 | After `rem_by_id(i)` of an id already handed out, the next `add` gets an id above `i`: the `AUTOINCREMENT` counter never reuses an id. |
| `Store.AddThenFetch` | CommentMan.php:282-305 | After `add`, fetching the new id returns the bound values, trimmed as the object trims them, with the insertion time and cleared flags. |
| `Store.Remove` | CommentMan.php:206-270 | A delete keeps each spared row with its multiplicity and removes every matching row. `length()` drops by the number of matches: to 0 when all match, and not at all when none match. |
| `Store.RemById` | CommentMan.php:206-213 | `rem_by_id` removes exactly the rows with that id. Every other row is kept, with its multiplicity. |
| `Store.RemByName` | CommentMan.php:223-230 | `rem_by_name` removes exactly the rows with that username. Every other row is kept, with its multiplicity. |
| `Store.RemNewerThan` | CommentMan.php:243-250 | `rem_newer_than` removes exactly the rows stamped at or after `now - d`. Every other row is kept, with its multiplicity. |
| `Store.RemOlderThan` | CommentMan.php:263-270 | `rem_older_than` removes exactly the rows stamped at or before `now - d`. Every other row is kept, with its multiplicity. |
| `Store.WindowsMeetAtCutoff` | CommentMan.php:243-270 | Both time-window deletes include the cutoff, so applying both with the same duration empties the table. |
| `Store.ZeroDuration` | CommentMan.php:243-270 | With duration 0, `rem_older_than` empties a table with no future rows, while `rem_newer_than` keeps every row stamped before `now`. |
| `Store.FetchById` | CommentMan.php:282-305 | `fetch_by_id` returns `null` exactly when no row has the id. Otherwise it returns a stored row with that id, as the hydrated object describes it. |
| `Store.FetchStored` | CommentMan.php:282-305 | In a valid table, fetching the id of any stored row returns that row, trimmed. |
| `Store.RemoveThenFetch` | CommentMan.php:206-213 | After `rem_by_id(i)`, `fetch_by_id(i)` returns `null`. |
| `Store.SortByKey` | CommentMan.php:323 | The result is a permutation of the input, ordered by timestamp and then parent id. |
| `Store.Take` | CommentMan.php:324 | `LIMIT n` keeps the first `n` rows. A negative limit keeps them all. |
| `Store.Query` | CommentMan.php:319-325 | The selected rows are of the post, sorted, and exactly the limit in number (or all of them). They are drawn from the post's rows, and no row of the post that was left out sorts before one that was kept. With no effective limit they are all the post's rows. |
| `Store.FetchByPost` | CommentMan.php:319-336 | There is one result per selected row, each as `fetch_by_id` returns it. In a valid table, each is the selected row trimmed: all are of the post, in timestamp and parent order, with distinct non-zero ids. |
| `Store.PageHoldsPost` | CommentMan.php:319-336 | When the limit does not cut the page, every stored comment of the post is on it. |
| `Store.FetchThread` | CommentMan.php:349-354 | In a valid table the thread always exists. Each node holds a stored comment of the post, as fetched, and no path is longer than 100. |
| `Store.ThreadLimitUnused` | CommentMan.php:349-354 | `fetch_thread` gives the same thread whatever limit it is given: the thread of the default page of 100. |
| `Store.FetchThreadLimited` | CommentMan.php:339-348 | As documented, with the limit passed on: every node is one of the at most `limit` comments of the page, and no path is longer than the limit. |
| `Store.ReplyNests` | CommentMan.php:349-384 | In a post that fits the page, a top-level comment is at the top under its id, with a reply to it nested in its `children`. |
| `Store.ComposedDraft` | CommentMan.php:189-193 | `add` binds, from an object built by five `__set` calls and `prepare`, the two integers as given, the ip trimmed, and the username and message trimmed and then sanitised. |
| `Store.SessionThread` | CommentMan.php:180-196 | Two `add` calls into a fresh table give ids 1 and 2. When the first is top-level and the second names parent 1 on the same post, the thread nests the second under the first. |
| `Store.SampleThread` | example.php:52-74 | The sample page's two objects are built with `__set` and `prepare`, added, and threaded. They are stored under ids 1 and 2, and the thread of post 2 holds the first comment under key 1 with the reply under key 2 inside it. |
| `Store.SampleLimitZero` | CommentMan.php:349-354 | On the sample session with limit 0, the thread as written still holds both comments, while the documented behaviour gives an empty thread. |

## Left out

- Not modelled:
  - SQLite connection handling: the constructor's file checks and `die`
    paths, the destructor, `is_empty`, and running the `CREATE TABLE`
    statement. These are I/O and process exit. `Store.Created` is the state
    `create` leaves.
  - The SQL text itself. The model gives each statement its meaning.
    Interpolating arguments into SQL (an injection risk) is not modelled, and
    neither is SQLite reading a double-quoted word as a column name: with
    `rem_by_name("username")`, the condition compares the column with itself
    and deletes every row whose username is not NULL.
  - The schema's `NOT_NULL` spelling, which SQLite takes as part of the type
    name, so NULLs are not refused. Rows hold integers and strings, never
    NULL. Binding an unset property stores NULL in that column, and
    `parent_id`'s `DEFAULT 0` does not apply then. This is not modelled.
  - Time strings such as `"1 day"` or `"6 months"`, SQLite's `datetime`, and
    the `CURRENT_TIMESTAMP` default. These are replaced by an integer `now`
    and integer durations.
  - `filter_var(..., FILTER_SANITIZE_FULL_SPECIAL_CHARS)`, a library call. It
    is the parameter `sanitize` of `Comments.Prepare`. No property is
    assumed of it, except in `Comments.PrepareIdempotent`, which states its
    assumption as a precondition.
  - Success flags, the `SQLite3Result`, and `querySingle` return types.
  - `example.php`'s HTML rendering and date formatting. Its comment objects,
    its two `add` calls and its `fetch_thread` call are kept as
    `Store.SampleThread`. The client address is the parameter `ip`, and the
    sanitiser is the parameter `sanitize`.
  - `Store.DraftOf` reads an integer property with `Strings.ParseInt`. That
    matches PHP's integer conversion on the decimal strings `__set` stores
    for integers (`Store.IntPropertyReadsBack`), but not on other strings.
  - The table and thread builder do not reproduce the PHP string-typed ids
    that `__set` produces. They work on a typed row with integer ids, and
    PHP's loose `==` between a numeric string and an integer is read as
    integer equality. `Rows.HydrateIsFetched` records what the object holds:
    the row's columns as trimmed strings.
- Store.Add: ids are unbounded integers. SQLite's `AUTOINCREMENT` refuses
  every insert once rowid 2^63-1 has been used. The model keeps appending, so
  the 64-bit limit is not modelled.
- Thread.ThreadFinishes: finishing is proved only for distinct, non-zero ids,
  which is what the auto-increment key guarantees. For other lists the model
  keeps the budget's `None` rather than characterising exactly which lists
  make PHP recurse forever.
- Store.SortByKey: the order among rows with equal timestamp and parent id is
  not specified. SQLite does not specify it either.
- Store.FetchById: it names the row by existence. Which of several rows
  sharing an id is returned matters only outside `Store.Valid`, where ids are
  unique.

## Findings

| source | as written | input that shows it | evidently intended | confidence | as-written member | corrected member |
|---|---|---|---|---|---|---|
| CommentMan.php:349-354 | `fetch_thread($post_id, $limit)` calls `fetch_by_post($post_id)` and never uses `$limit`. | The sample session with `limit = 0`: the thread still holds both comments. | The documented "maximum number of comments to retrieve": pass `$limit` on to `fetch_by_post`. | medium, not executed | `Store.SampleLimitZero` | `Store.FetchThreadLimited` |

=== FILE: comment.dfy ===
/**
 * The `Comment` object: nine privately declared properties reached through
 * the magic accessors `__get` and `__set`, plus `prepare`, `toArray` and
 * `__toString`.  PHP properties are untyped, so each slot holds a `Value`.
 */
module Comments {
  import opened Wrappers
  import Strings

  /** A PHP scalar as held in one property of a comment. */
  datatype Value = Null | Int(n: int) | Str(s: string)

  /** PHP's string conversion `(string)$v`: `null` becomes the empty string
      and an integer its decimal notation. */
  function Render(v: Value): string {
    match v
    case Null => ""
    case Int(n) => Strings.IntToString(n)
    case Str(s) => s
  }

  /** PHP `trim($v)`: the value converted to a string, stripped at both ends. */
  function Trimmed(v: Value): Value {
    Str(Strings.Trim(Render(v)))
  }

  /** The declared properties of `Comment`. */
  datatype Field = Id | ParentId | PostId | Username | Message | Timestamp | Ip | IsDeleted | IsHidden

  /** The properties in declaration order. */
  const Declared: seq<Field> := [Id, ParentId, PostId, Username, Message, Timestamp, Ip, IsDeleted, IsHidden]

  /** The property name as PHP code spells it. */
  function Name(f: Field): string {
    match f
    case Id => "id"
    case ParentId => "parent_id"
    case PostId => "post_id"
    case Username => "username"
    case Message => "message"
    case Timestamp => "timestamp"
    case Ip => "ip"
    case IsDeleted => "is_deleted"
    case IsHidden => "is_hidden"
  }

  /** `property_exists($this, $name)`, answering which property is meant. */
  function FieldNamed(name: string): (r: Option<Field>)
    ensures r.Some? ==> Name(r.value) == name
    ensures r.None? ==> forall f: Field :: Name(f) != name
  {
    if name == "id" then Some(Id)
    else if name == "parent_id" then Some(ParentId)
    else if name == "post_id" then Some(PostId)
    else if name == "username" then Some(Username)
    else if name == "message" then Some(Message)
    else if name == "timestamp" then Some(Timestamp)
    else if name == "ip" then Some(Ip)
    else if name == "is_deleted" then Some(IsDeleted)
    else if name == "is_hidden" then Some(IsHidden)
    else None
  }

  /** Distinct properties have distinct names. */
  lemma NameInjective(f: Field, g: Field)
    requires Name(f) == Name(g)
    ensures f == g
  {
  }

  /** A name denotes property `f` exactly when it is spelled as `f`'s name. */
  lemma FieldNamedExact(name: string)
    ensures forall f: Field :: Name(f) == name <==> FieldNamed(name) == Some(f)
  {
    forall f: Field | Name(f) == name ensures FieldNamed(name) == Some(f) {
      NameInjective(f, FieldNamed(name).value);
    }
  }

  /** Where property `f` stands in the declaration order. */
  function Position(f: Field): (i: nat)
    ensures i < |Declared| && Declared[i] == f
  {
    match f
    case Id => 0
    case ParentId => 1
    case PostId => 2
    case Username => 3
    case Message => 4
    case Timestamp => 5
    case Ip => 6
    case IsDeleted => 7
    case IsHidden => 8
  }

  /** Every property appears in the declaration order, under a distinct name. */
  lemma DeclaredIsComplete()
    ensures forall f: Field :: f in Declared
    ensures forall i, j :: 0 <= i < j < |Declared| ==> Name(Declared[i]) != Name(Declared[j])
  {
    forall f: Field ensures f in Declared {
      assert Declared[Position(f)] == f;
    }
    forall i, j | 0 <= i < j < |Declared| ensures Name(Declared[i]) != Name(Declared[j]) {
      if Name(Declared[i]) == Name(Declared[j]) {
        NameInjective(Declared[i], Declared[j]);
      }
    }
  }

  datatype Comment = Comment(
    id: Value,
    parent_id: Value,
    post_id: Value,
    username: Value,
    message: Value,
    timestamp: Value,
    ip: Value,
    is_deleted: Value,
    is_hidden: Value)

  /** `new Comment()`: every property is unset. */
  function Fresh(): Comment {
    Comment(Null, Null, Null, Null, Null, Null, Null, Null, Null)
  }

  /** The property `f` of `c`. */
  function Slot(c: Comment, f: Field): Value {
    match f
    case Id => c.id
    case ParentId => c.parent_id
    case PostId => c.post_id
    case Username => c.username
    case Message => c.message
    case Timestamp => c.timestamp
    case Ip => c.ip
    case IsDeleted => c.is_deleted
    case IsHidden => c.is_hidden
  }

  /** `c` with property `f` replaced by `v`. */
  function WithSlot(c: Comment, f: Field, v: Value): (r: Comment)
    ensures Slot(r, f) == v
    ensures forall g: Field :: g != f ==> Slot(r, g) == Slot(c, g)
  {
    match f
    case Id => c.(id := v)
    case ParentId => c.(parent_id := v)
    case PostId => c.(post_id := v)
    case Username => c.(username := v)
    case Message => c.(message := v)
    case Timestamp => c.(timestamp := v)
    case Ip => c.(ip := v)
    case IsDeleted => c.(is_deleted := v)
    case IsHidden => c.(is_hidden := v)
  }

  /** Writing a property's own value back leaves the comment as it was. */
  lemma WithSlotOwn(c: Comment, f: Field)
    ensures WithSlot(c, f, Slot(c, f)) == c
  {
    match f
    case Id =>
    case ParentId =>
    case PostId =>
    case Username =>
    case Message =>
    case Timestamp =>
    case Ip =>
    case IsDeleted =>
    case IsHidden =>
  }

  /** `__get($name)`: the stored value of a declared property, and `null`
      (the implicit return) for any other name. */
  function Get(c: Comment, name: string): (r: Value)
    ensures forall f: Field :: Name(f) == name ==> r == Slot(c, f)
    ensures (forall f: Field :: Name(f) != name) ==> r == Null
  {
    FieldNamedExact(name);
    match FieldNamed(name)
    case Some(f) => Slot(c, f)
    case None => Null
  }

  /** `__set($name, $v)`: a declared property receives `trim($v)`; any other
      name is silently ignored. */
  function Set(c: Comment, name: string, v: Value): (r: Comment)
    ensures forall f: Field :: Name(f) == name ==> Slot(r, f) == Trimmed(v)
    ensures forall f: Field :: Name(f) != name ==> Slot(r, f) == Slot(c, f)
    ensures (forall f: Field :: Name(f) != name) ==> r == c
  {
    FieldNamedExact(name);
    match FieldNamed(name)
    case Some(f) => WithSlot(c, f, Trimmed(v))
    case None => c
  }

  /** A run of `__set` calls, one per `(name, value)` pair, in order. */
  function SetEach(c: Comment, assignments: seq<(string, Value)>): Comment
    decreases |assignments|
  {
    if |assignments| == 0 then c
    else SetEach(Set(c, assignments[0].0, assignments[0].1), assignments[1..])
  }

  lemma {:induction false} SetEachUntouched(c: Comment, assignments: seq<(string, Value)>, f: Field)
    requires forall j :: 0 <= j < |assignments| ==> assignments[j].0 != Name(f)
    ensures Slot(SetEach(c, assignments), f) == Slot(c, f)
    decreases |assignments|
  {
    if |assignments| > 0 {
      SetEachUntouched(Set(c, assignments[0].0, assignments[0].1), assignments[1..], f);
    }
  }

  /** After a run of `__set` calls with distinct names, a property named in
      the run holds the trimmed value it was given. */
  lemma {:induction false} SetEachTouched(c: Comment, assignments: seq<(string, Value)>, i: nat, f: Field)
    requires i < |assignments| && assignments[i].0 == Name(f)
    requires forall j, k :: 0 <= j < k < |assignments| ==> assignments[j].0 != assignments[k].0
    ensures Slot(SetEach(c, assignments), f) == Trimmed(assignments[i].1)
    decreases i
  {
    var c' := Set(c, assignments[0].0, assignments[0].1);
    if i == 0 {
      SetEachUntouched(c', assignments[1..], f);
    } else {
      SetEachTouched(c', assignments[1..], i - 1, f);
    }
  }

  /** Setting then getting a property yields the trimmed value, and leaves
      what every other name reads unchanged. */
  lemma SetThenGet(c: Comment, name: string, v: Value, other: string)
    ensures FieldNamed(name).Some? ==> Get(Set(c, name, v), name) == Trimmed(v)
    ensures FieldNamed(name).None? ==> Get(Set(c, name, v), name) == Null
    ensures other != name ==> Get(Set(c, name, v), other) == Get(c, other)
  {
    var d := Set(c, name, v);
    FieldNamedExact(name);
    FieldNamedExact(other);
    match FieldNamed(name)
    case Some(f) =>
      assert Get(d, name) == Slot(d, f) == Trimmed(v);
      if other != name && FieldNamed(other).Some? {
        var g := FieldNamed(other).value;
        assert Name(g) != name;
        assert Get(d, other) == Slot(d, g) == Slot(c, g) == Get(c, other);
      }
    case None =>
      assert d == c;
  }

  /** What is stored by `__set` carries no surrounding whitespace, and a
      second `__set` of the stored value changes nothing. */
  lemma SetIsStable(c: Comment, name: string, v: Value)
    requires FieldNamed(name).Some?
    ensures Strings.Tight(Get(Set(c, name, v), name).s)
    ensures Set(Set(c, name, v), name, Get(Set(c, name, v), name)) == Set(c, name, v)
  {
    var f := FieldNamed(name).value;
    var t := Strings.Trim(Render(v));
    SetAt(c, name, f, v);
    var d := WithSlot(c, f, Str(t));
    assert Get(d, name) == Str(t);
    Strings.TrimTight(t);
    SetAt(d, name, f, Str(t));
    WithSlotOwn(d, f);
  }

  /** `__set` and `__get` with the name of declared property `f` act on
      exactly that property. */
  lemma SetAt(c: Comment, name: string, f: Field, v: Value)
    requires FieldNamed(name) == Some(f)
    ensures Set(c, name, v) == WithSlot(c, f, Trimmed(v))
    ensures Get(c, name) == Slot(c, f)
  {
  }

  /** `__set` with a property's own name stores into that property. */
  lemma SetNamed(c: Comment, f: Field, v: Value)
    ensures Set(c, Name(f), v) == WithSlot(c, f, Trimmed(v))
  {
    FieldNamedExact(Name(f));
    SetAt(c, Name(f), f, v);
  }

  /** `__get` with a property's own name reads that property. */
  lemma GetNamed(c: Comment, f: Field)
    ensures Get(c, Name(f)) == Slot(c, f)
  {
    FieldNamedExact(Name(f));
  }

  /** `prepare()`: `username` and `message` are replaced by the sanitiser
      applied to their string form; the sanitiser is `filter_var` with
      `FILTER_SANITIZE_FULL_SPECIAL_CHARS`, passed in as `sanitize`. */
  function Prepare(c: Comment, sanitize: string -> string): (r: Comment)
    ensures Slot(r, Username) == Str(sanitize(Render(Slot(c, Username))))
    ensures Slot(r, Message) == Str(sanitize(Render(Slot(c, Message))))
    ensures forall f: Field :: f != Username && f != Message ==> Slot(r, f) == Slot(c, f)
  {
    c.(username := Str(sanitize(Render(c.username))), message := Str(sanitize(Render(c.message))))
  }

  /** The model assumes nothing of the sanitiser.  When it leaves its own
      output alone, as an HTML encoder that does not re-encode existing
      entities does, a second `prepare()` changes nothing. */
  lemma PrepareIdempotent(c: Comment, sanitize: string -> string)
    requires forall s :: sanitize(sanitize(s)) == sanitize(s)
    ensures Prepare(Prepare(c, sanitize), sanitize) == Prepare(c, sanitize)
  {
    assert Render(Str(sanitize(Render(c.username)))) == sanitize(Render(c.username));
    assert Render(Str(sanitize(Render(c.message)))) == sanitize(Render(c.message));
  }

  /** The key of the subtree slot `toArray` adds. */
  const ChildrenKey: string := "children"

  /** A PHP ordered array with string keys. */
  type Assoc = seq<(string, Value)>

  /** `$arr[$key]`: the value under `key`, or `null` when it is absent. */
  function ArrayGet(arr: Assoc, key: string): Value
    decreases |arr|
  {
    if |arr| == 0 then Null
    else if arr[0].0 == key then arr[0].1
    else ArrayGet(arr[1..], key)
  }

  /** `toArray()`: the nine properties in declaration order, under their
      names, followed by `children => null`. */
  function ToArray(c: Comment): (r: Assoc)
    ensures |r| == |Declared| + 1
    ensures forall i :: 0 <= i < |Declared| ==> r[i] == (Name(Declared[i]), Slot(c, Declared[i]))
    ensures r[|Declared|] == (ChildrenKey, Null)
  {
    [ ("id", c.id), ("parent_id", c.parent_id), ("post_id", c.post_id),
      ("username", c.username), ("message", c.message), ("timestamp", c.timestamp),
      ("ip", c.ip), ("is_deleted", c.is_deleted), ("is_hidden", c.is_hidden),
      (ChildrenKey, Null) ]
  }

  lemma {:induction false} ArrayGetAt(arr: Assoc, i: nat, key: string)
    requires i < |arr| && arr[i].0 == key
    requires forall j :: 0 <= j < i ==> arr[j].0 != key
    ensures ArrayGet(arr, key) == arr[i].1
    decreases i
  {
    if i > 0 {
      ArrayGetAt(arr[1..], i - 1, key);
    }
  }

  lemma {:induction false} ArrayGetAbsent(arr: Assoc, key: string)
    requires forall j :: 0 <= j < |arr| ==> arr[j].0 != key
    ensures ArrayGet(arr, key) == Null
    decreases |arr|
  {
    if |arr| > 0 {
      ArrayGetAbsent(arr[1..], key);
    }
  }

  /** Reading any key of `toArray()` gives what `__get` gives for that name:
      the property for a declared name, `null` for `children` and every
      other name. */
  lemma ToArrayAgreesWithGet(c: Comment, name: string)
    ensures ArrayGet(ToArray(c), name) == Get(c, name)
  {
    var a := ToArray(c);
    DeclaredIsComplete();
    FieldNamedExact(name);
    match FieldNamed(name)
    case Some(f) =>
      ArrayGetAt(a, Position(f), name);
    case None =>
      if name == ChildrenKey {
        ArrayGetAt(a, |Declared|, name);
      } else {
        ArrayGetAbsent(a, name);
      }
  }

  /** The property values, converted to strings, in declaration order. */
  function Rendered(c: Comment): seq<string> {
    seq(|Declared|, i requires 0 <= i < |Declared| => Render(Slot(c, Declared[i])))
  }

  lemma JoinNine(c: Comment)
    ensures Strings.Join(Rendered(c), ", ")
      == Render(c.id) + ", " + Render(c.parent_id) + ", " + Render(c.post_id)
         + ", " + Render(c.username) + ", " + Render(c.message) + ", " + Render(c.timestamp)
         + ", " + Render(c.ip) + ", " + Render(c.is_deleted) + ", " + Render(c.is_hidden)
  {
    var p := Rendered(c);
    var sep := ", ";
    var j1 := Render(c.id);
    assert p[0] == j1;
    assert p[..1] == [j1];
    var j2 := j1 + sep + Render(c.parent_id);
    assert Strings.Join(p[..2], sep) == j2 by {
      assert p[1] == Render(c.parent_id);
      Strings.JoinStep(p, 2, sep);
    }
    var j3 := j2 + sep + Render(c.post_id);
    assert Strings.Join(p[..3], sep) == j3 by {
      assert p[2] == Render(c.post_id);
      Strings.JoinStep(p, 3, sep);
    }
    var j4 := j3 + sep + Render(c.username);
    assert Strings.Join(p[..4], sep) == j4 by {
      assert p[3] == Render(c.username);
      Strings.JoinStep(p, 4, sep);
    }
    var j5 := j4 + sep + Render(c.message);
    assert Strings.Join(p[..5], sep) == j5 by {
      assert p[4] == Render(c.message);
      Strings.JoinStep(p, 5, sep);
    }
    var j6 := j5 + sep + Render(c.timestamp);
    assert Strings.Join(p[..6], sep) == j6 by {
      assert p[5] == Render(c.timestamp);
      Strings.JoinStep(p, 6, sep);
    }
    var j7 := j6 + sep + Render(c.ip);
    assert Strings.Join(p[..7], sep) == j7 by {
      assert p[6] == Render(c.ip);
      Strings.JoinStep(p, 7, sep);
    }
    var j8 := j7 + sep + Render(c.is_deleted);
    assert Strings.Join(p[..8], sep) == j8 by {
      assert p[7] == Render(c.is_deleted);
      Strings.JoinStep(p, 8, sep);
    }
    var j9 := j8 + sep + Render(c.is_hidden);
    assert Strings.Join(p[..9], sep) == j9 by {
      assert p[8] == Render(c.is_hidden);
      Strings.JoinStep(p, 9, sep);
    }
    assert p[..9] == p;
  }

  /** `__toString()`: the nine properties in declaration order between
      `"{ "` and `" }"`, separated by `", "`. */
  function ToString(c: Comment): (r: string)
    ensures r == "{ " + Strings.Join(Rendered(c), ", ") + " }"
    ensures |r| == 4 + Strings.SumLengths(Rendered(c)) + 2 * (|Declared| - 1)
  {
    var fields :=
      Render(c.id) + ", " + Render(c.parent_id) + ", " + Render(c.post_id)
      + ", " + Render(c.username) + ", " + Render(c.message) + ", " + Render(c.timestamp)
      + ", " + Render(c.ip) + ", " + Render(c.is_deleted) + ", " + Render(c.is_hidden);
    JoinNine(c);
    Strings.JoinLength(Rendered(c), ", ");
    "{ " + fields + " }"
  }
}

=== FILE: rows.dfy ===
/**
 * A row of the `comments` table and how `fetch_by_id` turns it into a
 * `Comment` object: a fresh object receives each column through `__set`,
 * so every value arrives trimmed and as a string.
 */
module Rows {
  import opened Comments
  import Strings

  /** One stored comment.  Integer columns are `int`; the two flags hold
      SQLite's 0/1 booleans; `timestamp` is a point in time in seconds. */
  datatype Row = Row(
    id: int,
    parent_id: int,
    post_id: int,
    username: string,
    message: string,
    timestamp: int,
    ip: string,
    is_deleted: int,
    is_hidden: int)

  /** The column of `r` that stores property `f`, as SQLite hands it to PHP. */
  function Column(r: Row, f: Field): Value {
    match f
    case Id => Int(r.id)
    case ParentId => Int(r.parent_id)
    case PostId => Int(r.post_id)
    case Username => Str(r.username)
    case Message => Str(r.message)
    case Timestamp => Int(r.timestamp)
    case Ip => Str(r.ip)
    case IsDeleted => Int(r.is_deleted)
    case IsHidden => Int(r.is_hidden)
  }

  /** The assignments `fetch_by_id` makes: every column under its property
      name, in declaration order. */
  function Assignments(r: Row): seq<(string, Value)> {
    seq(|Declared|, i requires 0 <= i < |Declared| => (Name(Declared[i]), Column(r, Declared[i])))
  }

  /** The object `fetch_by_id` builds from a row: `new Comment()` followed by
      one `__set` per column. */
  function Hydrate(r: Row): (c: Comment)
    ensures forall f: Field :: Slot(c, f) == Trimmed(Column(r, f))
  {
    var a := Assignments(r);
    DeclaredIsComplete();
    forall f: Field ensures Slot(SetEach(Fresh(), a), f) == Trimmed(Column(r, f)) {
      SetEachTouched(Fresh(), a, Position(f), f);
    }
    SetEach(Fresh(), a)
  }

  /** The row as the fetched object describes it: text columns trimmed,
      integer columns unchanged. */
  function Fetched(r: Row): Row {
    r.(username := Strings.Trim(r.username),
       message := Strings.Trim(r.message),
       ip := Strings.Trim(r.ip))
  }

  /** The fetched object holds, as strings, exactly the columns of the
      fetched row; integers survive trimming because their decimal form has
      no surrounding whitespace. */
  lemma HydrateIsFetched(r: Row)
    ensures forall f: Field :: Slot(Hydrate(r), f) == Str(Render(Column(Fetched(r), f)))
    ensures Fetched(r).id == r.id && Fetched(r).parent_id == r.parent_id
    ensures Fetched(r).post_id == r.post_id && Fetched(r).timestamp == r.timestamp
  {
    forall f: Field ensures Slot(Hydrate(r), f) == Str(Render(Column(Fetched(r), f))) {
      TrimmedColumn(r, f);
    }
  }

  lemma TrimmedColumn(r: Row, f: Field)
    ensures Trimmed(Column(r, f)) == Str(Render(Column(Fetched(r), f)))
  {
    match f
    case Id => Strings.TrimTight(Strings.IntToString(r.id));
    case ParentId => Strings.TrimTight(Strings.IntToString(r.parent_id));
    case PostId => Strings.TrimTight(Strings.IntToString(r.post_id));
    case Timestamp => Strings.TrimTight(Strings.IntToString(r.timestamp));
    case IsDeleted => Strings.TrimTight(Strings.IntToString(r.is_deleted));
    case IsHidden => Strings.TrimTight(Strings.IntToString(r.is_hidden));
    case Username =>
    case Message =>
    case Ip =>
  }

  /** Fetching an already fetched row changes nothing. */
  lemma FetchedIsStable(r: Row)
    ensures Fetched(Fetched(r)) == Fetched(r)
  {
    Strings.TrimIdempotent(r.username);
    Strings.TrimIdempotent(r.message);
    Strings.TrimIdempotent(r.ip);
  }
}

=== FILE: store.dfy ===
/**
 * The `comments` table and the operations `CommentMan` runs on it, each
 * read as the meaning of its SQL statement: a pure transition from one
 * table to the next, or a query over it.  The clock is the explicit
 * parameter `now`; durations and timestamps are whole seconds.
 */
module Store {
  import opened Wrappers
  import opened Rows
  import Comments
  import Strings
  import Thread

  /** The stored rows in rowid order, and the largest id ever handed out
      (the `sqlite_sequence` entry that `AUTOINCREMENT` keeps). */
  datatype Table = Table(rows: seq<Row>, lastId: int)

  /** What the table keeps true: ids are positive, no larger than the last
      id handed out, and increase along the rows. */
  ghost predicate Valid(t: Table) {
    && t.lastId >= 0
    && (forall x :: x in t.rows ==> 0 < x.id <= t.lastId)
    && Increasing(t.rows)
  }

  ghost predicate Increasing(rows: seq<Row>) {
    forall i, j :: 0 <= i < j < |rows| ==> rows[i].id < rows[j].id
  }

  /** The table as `create()` leaves it. */
  function Created(): (t: Table)
    ensures Valid(t) && |t.rows| == 0
  {
    Table([], 0)
  }

  /** `length()`: `SELECT COUNT(*) FROM comments`, the number of rows that
      satisfy the always-true condition. */
  function Length(t: Table): (r: nat)
    ensures r == Count(t.rows, (x: Row) => true)
  {
    CountAll(t.rows);
    |t.rows|
  }

  /** Every row meets the always-true condition. */
  lemma {:induction false} CountAll(rows: seq<Row>)
    ensures Count(rows, (x: Row) => true) == |rows|
    decreases |rows|
  {
    if |rows| > 0 {
      CountAll(rows[..|rows| - 1]);
    }
  }

  /** The values `add` binds: `parent_id`, `post_id`, `username`, `message`
      and `ip` of the comment object. */
  datatype Draft = Draft(parent_id: int, post_id: int, username: string, message: string, ip: string)

  function Max(a: int, b: int): int {
    if a < b then b else a
  }

  /** The largest id among `rows`, or 0 when there is none. */
  function MaxId(rows: seq<Row>): (m: int)
    ensures m >= 0
    ensures forall x :: x in rows ==> x.id <= m
    decreases |rows|
  {
    if |rows| == 0 then 0 else Max(MaxId(rows[1..]), rows[0].id)
  }

  /** `add($c)`: inserts one row with the bound values, a fresh id one
      above every id ever used, the current time, and both flags 0. */
  function Add(t: Table, d: Draft, now: int): (r: Table)
    ensures |r.rows| == |t.rows| + 1 && r.rows[..|t.rows|] == t.rows
    ensures Length(r) == Length(t) + 1
    ensures var n := r.rows[|t.rows|];
            && n.id > 0
            && (forall x :: x in t.rows ==> x.id < n.id)
            && n.parent_id == d.parent_id && n.post_id == d.post_id
            && n.username == d.username && n.message == d.message && n.ip == d.ip
            && n.timestamp == now && n.is_deleted == 0 && n.is_hidden == 0
    ensures var n := r.rows[|t.rows|]; n.id > t.lastId && r.lastId == n.id
    ensures Valid(t) ==> Valid(r)
  {
    var id := Max(t.lastId, MaxId(t.rows)) + 1;
    var n := Row(id, d.parent_id, d.post_id, d.username, d.message, now, d.ip, 0, 0);
    Appended(t, n);
    Table(t.rows + [n], id)
  }

  /** Appending a row whose id is above the counter and above every stored
      id, and advancing the counter to it, keeps the earlier rows and the
      table invariant. */
  lemma Appended(t: Table, n: Row)
    requires n.id > t.lastId && n.id > 0
    requires forall x :: x in t.rows ==> x.id < n.id
    ensures var r := Table(t.rows + [n], n.id);
            && r.rows[..|t.rows|] == t.rows && r.rows[|t.rows|] == n
            && Length(r) == Length(t) + 1
            && (Valid(t) ==> Valid(r))
  {
    var r := Table(t.rows + [n], n.id);
    assert r.rows[..|t.rows|] == t.rows;
    if Valid(t) {
      AppendIncreasing(t.rows, n);
      assert forall x :: x in r.rows ==> x in t.rows || x == n;
    }
  }

  /** A row whose id is above every id of an increasing list can follow it. */
  lemma AppendIncreasing(rows: seq<Row>, n: Row)
    requires Increasing(rows)
    requires forall x :: x in rows ==> x.id < n.id
    ensures Increasing(rows + [n])
  {
    var r := rows + [n];
    forall i, j | 0 <= i < j < |r| ensures r[i].id < r[j].id {
      assert r[i] == rows[i];
      if j == |rows| {
        assert rows[i] in rows;
      } else {
        assert r[j] == rows[j];
      }
    }
  }

  /** An id is never handed out twice: after `rem_by_id(i)` for an id that
      was already handed out, the next `add` gets an id above `i`. */
  lemma IdsNotReused(t: Table, i: int, d: Draft, now: int)
    requires i <= t.lastId
    ensures var u := RemById(t, i); Add(u, d, now).rows[|u.rows|].id > i
  {
    assert RemById(t, i).lastId == t.lastId;
  }

  /** How many of `rows` satisfy `doomed`. */
  function Count(rows: seq<Row>, doomed: Row -> bool): nat
    decreases |rows|
  {
    if |rows| == 0 then 0
    else Count(rows[..|rows| - 1], doomed) + (if doomed(rows[|rows| - 1]) then 1 else 0)
  }

  /** `r` holds each row of `rows` that `doomed` spares, as often as
      `rows` does, and no other row. */
  ghost predicate Kept(r: seq<Row>, rows: seq<Row>, doomed: Row -> bool) {
    forall x :: multiset(r)[x] == if doomed(x) then 0 else multiset(rows)[x]
  }

  /** `DELETE ... WHERE doomed`: the rows that do not match, in order. */
  function Keep(rows: seq<Row>, doomed: Row -> bool): seq<Row>
    decreases |rows|
  {
    if |rows| == 0 then []
    else
      var last := rows[|rows| - 1];
      Keep(rows[..|rows| - 1], doomed) + (if doomed(last) then [] else [last])
  }

  /** `Keep` leaves the spared rows with their multiplicities. */
  lemma {:induction false} KeepKept(rows: seq<Row>, doomed: Row -> bool)
    ensures Kept(Keep(rows, doomed), rows, doomed)
    ensures forall x :: x in Keep(rows, doomed) <==> x in rows && !doomed(x)
    decreases |rows|
  {
    if |rows| > 0 {
      var init := rows[..|rows| - 1];
      var last := rows[|rows| - 1];
      KeepKept(init, doomed);
      assert rows == init + [last];
      KeepStepKept(init, last, Keep(init, doomed), doomed);
    }
  }

  /** `Keep` removes exactly `Count` rows. */
  lemma {:induction false} KeepCount(rows: seq<Row>, doomed: Row -> bool)
    ensures |Keep(rows, doomed)| + Count(rows, doomed) == |rows|
    decreases |rows|
  {
    if |rows| > 0 {
      KeepCount(rows[..|rows| - 1], doomed);
    }
  }

  /** `Keep` removes everything when every row is doomed, and nothing
      when none is. */
  lemma {:induction false} KeepExtremes(rows: seq<Row>, doomed: Row -> bool)
    ensures (forall x :: x in rows ==> doomed(x)) ==> Keep(rows, doomed) == []
    ensures (forall x :: x in rows ==> !doomed(x)) ==> Keep(rows, doomed) == rows
    decreases |rows|
  {
    if |rows| > 0 {
      var init := rows[..|rows| - 1];
      var last := rows[|rows| - 1];
      KeepExtremes(init, doomed);
      assert rows == init + [last];
      KeepStepExtremes(init, last, Keep(init, doomed), doomed);
    }
  }

  /** `Keep` keeps the order of the rows it spares. */
  lemma {:induction false} KeepIncreasing(rows: seq<Row>, doomed: Row -> bool)
    ensures Increasing(rows) ==> Increasing(Keep(rows, doomed))
    decreases |rows|
  {
    if |rows| > 0 {
      var init := rows[..|rows| - 1];
      var last := rows[|rows| - 1];
      KeepIncreasing(init, doomed);
      KeepKept(init, doomed);
      assert rows == init + [last];
      KeepStepIncreasing(init, last, Keep(init, doomed), doomed);
    }
  }

  /** Everything `Keep` promises, in one place. */
  lemma KeepFacts(rows: seq<Row>, doomed: Row -> bool)
    ensures var r := Keep(rows, doomed);
            && Kept(r, rows, doomed)
            && (forall x :: x in r <==> x in rows && !doomed(x))
            && |r| + Count(rows, doomed) == |rows|
            && ((forall x :: x in rows ==> doomed(x)) ==> r == [])
            && ((forall x :: x in rows ==> !doomed(x)) ==> r == rows)
            && (Increasing(rows) ==> Increasing(r))
  {
    KeepKept(rows, doomed);
    KeepCount(rows, doomed);
    KeepExtremes(rows, doomed);
    KeepIncreasing(rows, doomed);
  }

  /** One step of `Keep`: appending the last row keeps the multiset and
      membership facts. */
  lemma KeepStepKept(init: seq<Row>, last: Row, k: seq<Row>, doomed: Row -> bool)
    requires Kept(k, init, doomed)
    ensures var r := k + (if doomed(last) then [] else [last]);
            && Kept(r, init + [last], doomed)
            && (forall x :: x in r <==> x in init + [last] && !doomed(x))
  {
    var rows := init + [last];
    var r := k + (if doomed(last) then [] else [last]);
    assert multiset(rows) == multiset(init) + multiset{last};
    assert multiset(r) == multiset(k) + multiset(if doomed(last) then [] else [last]);
    assert Kept(r, rows, doomed);
    forall x ensures x in r <==> x in rows && !doomed(x) {
      assert x in r <==> x in multiset(r);
      assert x in rows <==> x in multiset(rows);
    }
  }

  /** One step of `Keep`: when every row, or no row, is doomed. */
  lemma KeepStepExtremes(init: seq<Row>, last: Row, k: seq<Row>, doomed: Row -> bool)
    requires (forall x :: x in init ==> doomed(x)) ==> k == []
    requires (forall x :: x in init ==> !doomed(x)) ==> k == init
    ensures var rows := init + [last];
            var r := k + (if doomed(last) then [] else [last]);
            && ((forall x :: x in rows ==> doomed(x)) ==> r == [])
            && ((forall x :: x in rows ==> !doomed(x)) ==> r == rows)
  {
    var rows := init + [last];
    assert last in rows;
    assert forall x :: x in init ==> x in rows;
  }

  /** One step of `Keep`: increasing ids stay increasing. */
  lemma KeepStepIncreasing(init: seq<Row>, last: Row, k: seq<Row>, doomed: Row -> bool)
    requires forall x :: x in k ==> x in init
    requires Increasing(init) ==> Increasing(k)
    ensures Increasing(init + [last]) ==> Increasing(k + (if doomed(last) then [] else [last]))
  {
    var rows := init + [last];
    var r := k + (if doomed(last) then [] else [last]);
    if Increasing(rows) {
      assert Increasing(init) by {
        forall i, j | 0 <= i < j < |init| ensures init[i].id < init[j].id {
          assert init[i] == rows[i] && init[j] == rows[j];
        }
      }
      forall i, j | 0 <= i < j < |r| ensures r[i].id < r[j].id {
        if j < |k| {
          assert r[i] == k[i] && r[j] == k[j];
        } else {
          assert r[i] == k[i] && r[j] == last;
          assert k[i] in init;
          var m :| 0 <= m < |init| && init[m] == k[i];
          assert rows[m] == init[m] && rows[|init|] == last;
        }
      }
    }
  }

  /** Rows are removed by deletes only; the sequence counter stays. */
  ghost predicate Shrinks(t: Table, r: Table) {
    && r.lastId == t.lastId
    && (Valid(t) ==> Valid(r))
  }

  function Remove(t: Table, doomed: Row -> bool): (r: Table)
    ensures forall x :: multiset(r.rows)[x] == if doomed(x) then 0 else multiset(t.rows)[x]
    ensures forall x :: x in r.rows <==> x in t.rows && !doomed(x)
    ensures Length(r) + Count(t.rows, doomed) == Length(t)
    ensures (forall x :: x in t.rows ==> doomed(x)) ==> Length(r) == 0
    ensures (forall x :: x in t.rows ==> !doomed(x)) ==> r == t
    ensures Shrinks(t, r)
  {
    KeepFacts(t.rows, doomed);
    Table(Keep(t.rows, doomed), t.lastId)
  }

  /** `rem_by_id($i)`: removes exactly the rows with id `i`. */
  function RemById(t: Table, i: int): (r: Table)
    ensures forall x :: x in r.rows <==> x in t.rows && x.id != i
    ensures forall x: Row :: x.id != i ==> multiset(r.rows)[x] == multiset(t.rows)[x]
    ensures (forall x :: x in t.rows ==> x.id != i) ==> r == t
    ensures Shrinks(t, r)
  {
    Remove(t, (x: Row) => x.id == i)
  }

  /** `rem_by_name($u)`: removes exactly the rows whose username is `u`. */
  function RemByName(t: Table, u: string): (r: Table)
    ensures forall x :: x in r.rows <==> x in t.rows && x.username != u
    ensures forall x: Row :: x.username != u ==> multiset(r.rows)[x] == multiset(t.rows)[x]
    ensures (forall x :: x in t.rows ==> x.username != u) ==> r == t
    ensures Shrinks(t, r)
  {
    Remove(t, (x: Row) => x.username == u)
  }

  /** `rem_newer_than($d)`: removes the rows stamped at or after `now - d`. */
  function RemNewerThan(t: Table, now: int, d: int): (r: Table)
    ensures forall x :: x in r.rows <==> x in t.rows && x.timestamp < now - d
    ensures forall x: Row :: x.timestamp < now - d ==> multiset(r.rows)[x] == multiset(t.rows)[x]
    ensures (forall x :: x in t.rows ==> x.timestamp < now - d) ==> r == t
    ensures (forall x :: x in t.rows ==> x.timestamp >= now - d) ==> Length(r) == 0
    ensures Shrinks(t, r)
  {
    Remove(t, (x: Row) => x.timestamp >= now - d)
  }

  /** `rem_older_than($d)`: removes the rows stamped at or before `now - d`. */
  function RemOlderThan(t: Table, now: int, d: int): (r: Table)
    ensures forall x :: x in r.rows <==> x in t.rows && x.timestamp > now - d
    ensures forall x: Row :: x.timestamp > now - d ==> multiset(r.rows)[x] == multiset(t.rows)[x]
    ensures (forall x :: x in t.rows ==> x.timestamp > now - d) ==> r == t
    ensures (forall x :: x in t.rows ==> x.timestamp <= now - d) ==> Length(r) == 0
    ensures Shrinks(t, r)
  {
    Remove(t, (x: Row) => x.timestamp <= now - d)
  }

  /** Both time-window deletes include the cutoff, so with the same
      duration one after the other they leave nothing. */
  lemma WindowsMeetAtCutoff(t: Table, now: int, d: int)
    ensures Length(RemOlderThan(RemNewerThan(t, now, d), now, d)) == 0
  {
  }

  /** With duration 0, `rem_older_than` clears every row not stamped in
      the future, while `rem_newer_than` only clears rows stamped at or
      after `now`: rows from the past survive it. */
  lemma ZeroDuration(t: Table, now: int)
    requires forall x :: x in t.rows ==> x.timestamp <= now
    ensures Length(RemOlderThan(t, now, 0)) == 0
    ensures forall x :: x in t.rows && x.timestamp < now ==> x in RemNewerThan(t, now, 0).rows
  {
  }

  /** The first row with id `i`. */
  function FirstWithId(rows: seq<Row>, i: int): (r: Option<Row>)
    ensures r.None? <==> forall x :: x in rows ==> x.id != i
    ensures r.Some? ==> r.value in rows && r.value.id == i
    decreases |rows|
  {
    if |rows| == 0 then None
    else if rows[0].id == i then Some(rows[0])
    else FirstWithId(rows[1..], i)
  }

  /** `fetch_by_id($i)`: the row with id `i` as the fetched comment object
      describes it, or `null` when there is none. */
  function FetchById(t: Table, i: int): (r: Option<Row>)
    ensures r.None? <==> forall x :: x in t.rows ==> x.id != i
    ensures r.Some? ==> exists x :: x in t.rows && x.id == i && r.value == Fetched(x)
  {
    match FirstWithId(t.rows, i)
    case None => None
    case Some(x) => Some(Fetched(x))
  }

  lemma {:induction false} FirstWithIdUnique(rows: seq<Row>, x: Row)
    requires x in rows
    requires forall y :: y in rows && y != x ==> y.id != x.id
    ensures FirstWithId(rows, x.id) == Some(x)
    decreases |rows|
  {
    if rows[0] != x {
      FirstWithIdUnique(rows[1..], x);
    }
  }

  /** In a valid table every stored row is what fetching its id returns. */
  lemma FetchStored(t: Table, x: Row)
    requires Valid(t) && x in t.rows
    ensures FetchById(t, x.id) == Some(Fetched(x))
  {
    forall y | y in t.rows && y != x ensures y.id != x.id {
      var i :| 0 <= i < |t.rows| && t.rows[i] == x;
      var j :| 0 <= j < |t.rows| && t.rows[j] == y;
    }
    FirstWithIdUnique(t.rows, x);
  }

  /** After `add`, fetching the new id returns the bound values, trimmed
      as the comment object trims them, with the time of insertion and
      both flags cleared; nothing else can be fetched under that id. */
  lemma AddThenFetch(t: Table, d: Draft, now: int)
    ensures var r := Add(t, d, now);
            var n := r.rows[|t.rows|];
            && FetchById(r, n.id) == Some(Fetched(n))
            && Fetched(n).parent_id == d.parent_id && Fetched(n).post_id == d.post_id
            && Fetched(n).username == Strings.Trim(d.username)
            && Fetched(n).message == Strings.Trim(d.message)
            && Fetched(n).ip == Strings.Trim(d.ip)
            && Fetched(n).timestamp == now
            && Fetched(n).is_deleted == 0 && Fetched(n).is_hidden == 0
  {
    var r := Add(t, d, now);
    var n := r.rows[|t.rows|];
    assert r.rows == t.rows + [n];
    forall y | y in r.rows && y != n ensures y.id != n.id {
      assert y in t.rows;
    }
    FirstWithIdUnique(r.rows, n);
  }

  /** After `rem_by_id($i)`, `fetch_by_id($i)` returns `null`. */
  lemma RemoveThenFetch(t: Table, i: int)
    ensures FetchById(RemById(t, i), i).None?
  {
  }

  /** `ORDER BY timestamp ASC, parent_id ASC`: `a` may come before `b`. */
  predicate KeyLe(a: Row, b: Row) {
    a.timestamp < b.timestamp || (a.timestamp == b.timestamp && a.parent_id <= b.parent_id)
  }

  ghost predicate SortedByKey(s: seq<Row>) {
    forall i, j :: 0 <= i < j < |s| ==> KeyLe(s[i], s[j])
  }

  /** Inserts `x` before the first element that does not sort below it. */
  function Insert(x: Row, s: seq<Row>): (r: seq<Row>)
    ensures multiset(r) == multiset(s) + multiset{x}
    ensures SortedByKey(s) ==> SortedByKey(r)
    decreases |s|
  {
    if |s| == 0 then [x]
    else if KeyLe(x, s[0]) then [x] + s
    else
      var tail := Insert(x, s[1..]);
      assert s == [s[0]] + s[1..];
      assert multiset([s[0]] + tail) == multiset{s[0]} + multiset(tail);
      assert SortedByKey(s) ==> SortedByKey([s[0]] + tail) by {
        if SortedByKey(s) {
          InsertBehindHead(x, s, tail);
        }
      }
      [s[0]] + tail
  }

  /** When `x` sorts after the head of a sorted list, the head still leads
      once `x` is inserted into the rest. */
  lemma InsertBehindHead(x: Row, s: seq<Row>, tail: seq<Row>)
    requires |s| > 0 && SortedByKey(s) && !KeyLe(x, s[0])
    requires multiset(tail) == multiset(s[1..]) + multiset{x}
    requires SortedByKey(tail)
    ensures SortedByKey([s[0]] + tail)
  {
    forall y | y in tail ensures KeyLe(s[0], y) {
      assert y in multiset(tail);
      if y != x {
        assert y in multiset(s[1..]);
        var j :| 0 <= j < |s[1..]| && s[1..][j] == y;
        assert s[j + 1] == y;
      }
    }
    ConsSorted(s[0], tail);
  }

  /** A row that sorts no later than every row of a sorted list can go in
      front of it. */
  lemma ConsSorted(h: Row, tail: seq<Row>)
    requires SortedByKey(tail)
    requires forall y :: y in tail ==> KeyLe(h, y)
    ensures SortedByKey([h] + tail)
  {
    var r := [h] + tail;
    forall i, j | 0 <= i < j < |r| ensures KeyLe(r[i], r[j]) {
      if i == 0 {
        assert r[j] == tail[j - 1];
      } else {
        assert r[i] == tail[i - 1] && r[j] == tail[j - 1];
      }
    }
  }

  /** The rows in `ORDER BY timestamp, parent_id` order. */
  function SortByKey(s: seq<Row>): (r: seq<Row>)
    ensures multiset(r) == multiset(s)
    ensures SortedByKey(r)
    decreases |s|
  {
    if |s| == 0 then []
    else
      assert s == [s[0]] + s[1..];
      Insert(s[0], SortByKey(s[1..]))
  }

  /** `LIMIT n`: the first `n` rows; a negative limit means no limit. */
  function Take(s: seq<Row>, limit: int): (r: seq<Row>)
    ensures |r| == if 0 <= limit < |s| then limit else |s|
    ensures r == s[..|r|]
  {
    if 0 <= limit < |s| then s[..limit] else s
  }

  /** The rows of post `p`, in rowid order. */
  function OfPost(t: Table, p: int): (r: seq<Row>)
    ensures forall x :: x in r <==> x in t.rows && x.post_id == p
    ensures |r| <= |t.rows|
    ensures Increasing(t.rows) ==> Increasing(r)
  {
    KeepFacts(t.rows, (x: Row) => x.post_id != p);
    Keep(t.rows, (x: Row) => x.post_id != p)
  }

  /** A prefix of a sorted sequence is sorted, and every row it leaves
      out sorts no earlier than every row it keeps. */
  lemma TakeSorted(s: seq<Row>, limit: int)
    requires SortedByKey(s)
    ensures var r := Take(s, limit);
            && SortedByKey(r)
            && (forall x :: x in r ==> x in s)
            && multiset(r) <= multiset(s)
            && (forall x, y :: x in r && y in multiset(s) - multiset(r) ==> KeyLe(x, y))
  {
    var r := Take(s, limit);
    var k := |r|;
    assert s == r + s[k..];
    assert multiset(s) == multiset(r) + multiset(s[k..]);
    forall x, y | x in r && y in multiset(s) - multiset(r) ensures KeyLe(x, y) {
      assert y in s[k..];
      var i :| 0 <= i < k && r[i] == x;
      var j :| 0 <= j < |s| - k && s[k..][j] == y;
      assert s[i] == x && s[k + j] == y;
    }
  }

  /** The `SELECT` of `fetch_by_post`: rows of post `p`, sorted by
      timestamp then parent id, at most `limit` of them, and no row of the
      post left out sorts before one that was kept. */
  function Query(t: Table, p: int, limit: int): (r: seq<Row>)
    ensures forall x :: x in r ==> x in t.rows && x.post_id == p
    ensures SortedByKey(r)
    ensures |r| == if 0 <= limit < |OfPost(t, p)| then limit else |OfPost(t, p)|
    ensures multiset(r) <= multiset(OfPost(t, p))
    ensures forall x, y :: x in r && y in multiset(OfPost(t, p)) - multiset(r) ==> KeyLe(x, y)
    ensures !(0 <= limit < |OfPost(t, p)|) ==> multiset(r) == multiset(OfPost(t, p))
  {
    var m := OfPost(t, p);
    var s := SortByKey(m);
    TakeSorted(s, limit);
    assert forall x :: x in s ==> x in m by {
      forall x | x in s ensures x in m {
        assert x in multiset(s);
      }
    }
    Take(s, limit)
  }

  /** In a sequence with increasing ids no row occurs twice. */
  lemma {:induction false} IncreasingOnce(s: seq<Row>, x: Row)
    requires Increasing(s)
    ensures multiset(s)[x] <= 1
    decreases |s|
  {
    if |s| > 0 {
      var rest := s[1..];
      assert s == [s[0]] + rest;
      assert Increasing(rest) by {
        forall i, j | 0 <= i < j < |rest| ensures rest[i].id < rest[j].id {
          assert rest[i] == s[i + 1] && rest[j] == s[j + 1];
        }
      }
      IncreasingOnce(rest, x);
    }
  }

  /** A row at two positions is counted at least twice. */
  lemma TwoPositions(r: seq<Row>, i: nat, j: nat)
    requires i < j < |r| && r[i] == r[j]
    ensures multiset(r)[r[i]] >= 2
  {
    assert r == r[..j] + [r[j]] + r[j + 1..];
    assert r[i] in r[..j];
  }

  /** A selection from rows with increasing ids repeats no id. */
  lemma DistinctWithin(r: seq<Row>, s: seq<Row>)
    requires Increasing(s) && multiset(r) <= multiset(s)
    ensures Thread.DistinctIds(r)
  {
    forall i, j | 0 <= i < j < |r| ensures r[i].id != r[j].id {
      if r[i] == r[j] {
        TwoPositions(r, i, j);
        IncreasingOnce(s, r[i]);
        assert false;
      } else {
        assert r[i] in multiset(s) && r[j] in multiset(s);
        var a :| 0 <= a < |s| && s[a] == r[i];
        var b :| 0 <= b < |s| && s[b] == r[j];
        assert a != b;
      }
    }
  }

  /** `fetch_by_post` re-reads each selected row through `fetch_by_id`. */
  function Refetch(t: Table, x: Row): Row
    requires x in t.rows
  {
    FetchById(t, x.id).value
  }

  /** The rows of the `SELECT`, each re-read through `fetch_by_id`. */
  function Page(t: Table, p: int, limit: int): (r: seq<Row>)
    ensures |r| == |Query(t, p, limit)|
    ensures forall i :: 0 <= i < |r| ==> Query(t, p, limit)[i] in t.rows
    ensures forall i :: 0 <= i < |r| ==> r[i] == Refetch(t, Query(t, p, limit)[i])
  {
    var q := Query(t, p, limit);
    seq(|q|, i requires 0 <= i < |q| => Refetch(t, q[i]))
  }

  /** `fetch_by_post($p, $limit)`: the selected rows, each as `fetch_by_id`
      returns it.  In a valid table that is each selected row, trimmed:
      all of post `p`, still in timestamp and parent order, and keyed as
      `build_thread` needs (distinct, non-zero ids). */
  function FetchByPost(t: Table, p: int, limit: int): (r: seq<Row>)
    ensures |r| == |Query(t, p, limit)|
    ensures Valid(t) ==> forall i :: 0 <= i < |r| ==> r[i] == Fetched(Query(t, p, limit)[i])
    ensures Valid(t) ==> forall i :: 0 <= i < |r| ==> r[i].post_id == p
    ensures Valid(t) ==> SortedByKey(r) && Thread.WellKeyed(r)
  {
    PageFacts(t, p, limit);
    Page(t, p, limit)
  }

  /** The page of a valid table, read back through `fetch_by_id`, is the
      selection itself with text columns trimmed. */
  lemma PageFacts(t: Table, p: int, limit: int)
    ensures var r := Page(t, p, limit);
            && (Valid(t) ==> forall i :: 0 <= i < |r| ==> r[i] == Fetched(Query(t, p, limit)[i]))
            && (Valid(t) ==> forall i :: 0 <= i < |r| ==> r[i].post_id == p)
            && (Valid(t) ==> SortedByKey(r) && Thread.WellKeyed(r))
  {
    if Valid(t) {
      var q := Query(t, p, limit);
      var r := Page(t, p, limit);
      RefetchedPage(t, q, r);
      SelectionFacts(t, p, limit);
      FetchedPage(q, r, p);
    }
  }

  lemma RefetchedPage(t: Table, q: seq<Row>, r: seq<Row>)
    requires Valid(t) && forall i :: 0 <= i < |q| ==> q[i] in t.rows
    requires |r| == |q| && forall i :: 0 <= i < |q| ==> r[i] == Refetch(t, q[i])
    ensures forall i :: 0 <= i < |r| ==> r[i] == Fetched(q[i])
  {
    forall i | 0 <= i < |r| ensures r[i] == Fetched(q[i]) {
      FetchStored(t, q[i]);
    }
  }

  /** In a valid table the selection is of post `p`, sorted, with distinct
      positive ids. */
  lemma SelectionFacts(t: Table, p: int, limit: int)
    requires Valid(t)
    ensures var q := Query(t, p, limit);
            && (forall i :: 0 <= i < |q| ==> q[i].post_id == p && q[i].id > 0)
            && SortedByKey(q) && Thread.DistinctIds(q)
  {
    var q := Query(t, p, limit);
    DistinctWithin(q, OfPost(t, p));
    assert forall i :: 0 <= i < |q| ==> q[i] in q;
  }

  /** Trimming the text columns of a page keeps its post, its order and
      its ids. */
  lemma FetchedPage(q: seq<Row>, r: seq<Row>, p: int)
    requires |r| == |q| && forall i :: 0 <= i < |q| ==> r[i] == Fetched(q[i])
    requires forall i :: 0 <= i < |q| ==> q[i].post_id == p && q[i].id > 0
    requires SortedByKey(q) && Thread.DistinctIds(q)
    ensures forall i :: 0 <= i < |r| ==> r[i].post_id == p
    ensures SortedByKey(r) && Thread.WellKeyed(r)
  {
  }

  /** The limit `fetch_thread` passes on: `fetch_by_post`'s default. */
  const DefaultLimit: int := 100

  /** `fetch_thread($p, $limit)`: the thread built from the default-sized
      page of the post's comments; its own `limit` goes unused.  In a valid
      table it always exists, each node holds a stored comment of post `p`
      as `fetch_by_id` returns it, and no path is longer than the page. */
  function FetchThread(t: Table, p: int, limit: int): (r: Option<Thread.Level>)
    ensures Valid(t) ==> r.Some?
    ensures Valid(t) && r.Some? ==>
              forall path :: Thread.At(r.value, path).Some? ==>
                && |path| <= DefaultLimit
                && exists x :: x in t.rows && x.post_id == p && Thread.At(r.value, path).value.fields == Fetched(x)
  {
    var cs := FetchByPost(t, p, DefaultLimit);
    var r := Thread.ThreadOf(cs);
    ThreadFacts(t, p, DefaultLimit);
    r
  }

  /** `fetch_thread` as documented, passing its `limit` on to
      `fetch_by_post`: every node is one of the at most `limit` comments of
      the page, so the tree holds at most `limit` comments. */
  function FetchThreadLimited(t: Table, p: int, limit: int): (r: Option<Thread.Level>)
    ensures Valid(t) ==> r.Some?
    ensures Valid(t) && r.Some? ==>
              forall path :: Thread.At(r.value, path).Some? ==>
                && Thread.At(r.value, path).value.fields in FetchByPost(t, p, limit)
                && (0 <= limit ==> |path| <= limit)
                && exists x :: x in t.rows && x.post_id == p && Thread.At(r.value, path).value.fields == Fetched(x)
  {
    var cs := FetchByPost(t, p, limit);
    var r := Thread.ThreadOf(cs);
    ThreadFacts(t, p, limit);
    r
  }

  /** The thread of a valid table's page exists, and each node is a
      comment of the page: a stored comment of the post, as fetched. */
  lemma ThreadFacts(t: Table, p: int, limit: int)
    ensures var cs := FetchByPost(t, p, limit);
            var r := Thread.ThreadOf(cs);
            && (Valid(t) ==> r.Some?)
            && (Valid(t) && r.Some? ==>
                  forall path :: Thread.At(r.value, path).Some? ==>
                    && Thread.At(r.value, path).value.fields in cs
                    && (0 <= limit ==> |path| <= limit)
                    && exists x :: x in t.rows && x.post_id == p && Thread.At(r.value, path).value.fields == Fetched(x))
  {
    if Valid(t) {
      var cs := FetchByPost(t, p, limit);
      var r := Thread.ThreadOf(cs);
      Thread.ThreadFinishes(cs);
      var q := Query(t, p, limit);
      forall path | Thread.At(r.value, path).Some?
        ensures && Thread.At(r.value, path).value.fields in cs
                && (0 <= limit ==> |path| <= limit)
                && exists x :: x in t.rows && x.post_id == p && Thread.At(r.value, path).value.fields == Fetched(x)
      {
        Thread.DepthBound(cs, r.value, path);
        var i :| 0 <= i < |cs| && cs[i] == Thread.At(r.value, path).value.fields;
        assert q[i] in q;
      }
    }
  }

  /** `fetch_thread` answers the same whatever limit it is given. */
  lemma ThreadLimitUnused(t: Table, p: int, a: int, b: int)
    ensures FetchThread(t, p, a) == FetchThread(t, p, b)
    ensures FetchThread(t, p, a) == FetchThreadLimited(t, p, DefaultLimit)
  {
  }

  /** When the limit does not cut the page short, the page holds every
      stored comment of the post, as `fetch_by_id` returns it. */
  lemma PageHoldsPost(t: Table, p: int, limit: int, x: Row)
    requires Valid(t) && x in t.rows && x.post_id == p
    requires !(0 <= limit < |OfPost(t, p)|)
    ensures Fetched(x) in FetchByPost(t, p, limit)
  {
    var q := Query(t, p, limit);
    assert x in multiset(q);
    var i :| 0 <= i < |q| && q[i] == x;
    assert FetchByPost(t, p, limit)[i] == Fetched(x);
  }

  /** The table of the sample session: two rows, ids 1 and 2. */
  lemma SampleTable(a: Draft, b: Draft, now1: int, now2: int)
    ensures var t := Add(Add(Created(), a, now1), b, now2);
            && Valid(t) && |t.rows| == 2
            && t.rows[0].id == 1 && t.rows[1].id == 2
            && t.rows[0].parent_id == a.parent_id && t.rows[1].parent_id == b.parent_id
            && t.rows[0].post_id == a.post_id && t.rows[1].post_id == b.post_id
  {
    var t1 := Add(Created(), a, now1);
    assert t1.rows[0].id == 1 && t1.lastId == 1 && |t1.rows| == 1;
    assert t1.rows[1..] == [];
    assert MaxId(t1.rows) == 1;
  }

  /** In a post small enough to fit the page, a top-level comment sits at
      the top of the thread under its id, and a reply to it sits in its
      `children` under the reply's id. */
  lemma ReplyNests(t: Table, p: int, limit: int, x: Row, y: Row)
    requires Valid(t) && x in t.rows && y in t.rows
    requires x.post_id == p && y.post_id == p && |OfPost(t, p)| <= DefaultLimit
    requires x.parent_id == 0 && y.parent_id == x.id
    ensures var r := FetchThread(t, p, limit);
            && r.Some?
            && Thread.At(r.value, [x.id]).Some?
            && Thread.At(r.value, [x.id]).value.fields == Fetched(x)
            && Thread.At(r.value, [x.id, y.id]).Some?
            && Thread.At(r.value, [x.id, y.id]).value.fields == Fetched(y)
  {
    var cs := FetchByPost(t, p, DefaultLimit);
    var r := FetchThread(t, p, limit);
    assert r == Thread.ThreadOf(cs);
    PageHoldsPost(t, p, DefaultLimit, x);
    PageHoldsPost(t, p, DefaultLimit, y);
    Thread.ReplyUnderRoot(cs, r.value, Fetched(x), Fetched(y));
  }

  /** Into a fresh table, add a top-level comment and then a reply naming
      parent 1, both on post 2.  The thread of post 2 holds the first
      comment under key 1 and the reply nested under it, under key 2. */
  lemma SessionThread(a: Draft, b: Draft, now1: int, now2: int, limit: int)
    requires a.parent_id == 0 && a.post_id == 2
    requires b.parent_id == 1 && b.post_id == 2
    ensures var t := Add(Add(Created(), a, now1), b, now2);
            var r := FetchThread(t, 2, limit);
            && r.Some?
            && Thread.At(r.value, [1]).Some?
            && Thread.At(r.value, [1]).value.fields == Fetched(t.rows[0])
            && Thread.At(r.value, [1, 2]).Some?
            && Thread.At(r.value, [1, 2]).value.fields == Fetched(t.rows[1])
  {
    var t := Add(Add(Created(), a, now1), b, now2);
    SampleTable(a, b, now1, now2);
    assert t.rows[0] in t.rows && t.rows[1] in t.rows;
    ReplyNests(t, 2, limit, t.rows[0], t.rows[1]);
  }

  /** The values `add` binds from a comment object, each read through
      `__get`: `parent_id` and `post_id` as the integer the stored decimal
      string spells (`SQLITE3_INTEGER`), the other three as strings
      (`SQLITE3_TEXT`). */
  function DraftOf(c: Comments.Comment): Draft {
    Draft(
      Strings.ParseInt(Comments.Render(Comments.Get(c, "parent_id"))),
      Strings.ParseInt(Comments.Render(Comments.Get(c, "post_id"))),
      Comments.Render(Comments.Get(c, "username")),
      Comments.Render(Comments.Get(c, "message")),
      Comments.Render(Comments.Get(c, "ip")))
  }

  /** A comment object as the sample page builds one: a fresh object, five
      `__set` calls in the page's order, then `prepare()`. */
  function Composed(parent: int, post: int, ip: string, username: string, message: string,
                    sanitize: string -> string): Comments.Comment
  {
    Comments.Prepare(Assigned(parent, post, ip, username, message), sanitize)
  }

  /** The object after the five `__set` calls. */
  function Assigned(parent: int, post: int, ip: string, username: string, message: string): Comments.Comment {
    var c1 := Comments.Set(Comments.Fresh(), "parent_id", Comments.Int(parent));
    var c2 := Comments.Set(c1, "post_id", Comments.Int(post));
    var c3 := Comments.Set(c2, "ip", Comments.Str(ip));
    var c4 := Comments.Set(c3, "username", Comments.Str(username));
    Comments.Set(c4, "message", Comments.Str(message))
  }

  /** An integer stored through `__set` reads back, through `__get` and the
      integer binding, as that integer. */
  lemma IntPropertyReadsBack(n: int)
    ensures Strings.ParseInt(Comments.Render(Comments.Trimmed(Comments.Int(n)))) == n
  {
    Strings.TrimTight(Strings.IntToString(n));
    Strings.IntRoundTrip(n);
  }

  /** `DraftOf` reads the five bound properties. */
  lemma DraftOfReads(c: Comments.Comment)
    ensures DraftOf(c) == Draft(Strings.ParseInt(Comments.Render(c.parent_id)), Strings.ParseInt(Comments.Render(c.post_id)),
                                Comments.Render(c.username), Comments.Render(c.message), Comments.Render(c.ip))
  {
    Comments.GetNamed(c, Comments.ParentId);
    Comments.GetNamed(c, Comments.PostId);
    Comments.GetNamed(c, Comments.Username);
    Comments.GetNamed(c, Comments.Message);
    Comments.GetNamed(c, Comments.Ip);
  }

  /** The five `__set` calls of the sample page store each value trimmed. */
  lemma AssignedHolds(parent: int, post: int, ip: string, username: string, message: string)
    ensures var c := Assigned(parent, post, ip, username, message);
            && c.parent_id == Comments.Trimmed(Comments.Int(parent))
            && c.post_id == Comments.Trimmed(Comments.Int(post))
            && c.ip == Comments.Str(Strings.Trim(ip))
            && c.username == Comments.Str(Strings.Trim(username))
            && c.message == Comments.Str(Strings.Trim(message))
  {
    var c0 := Comments.Fresh();
    Comments.SetNamed(c0, Comments.ParentId, Comments.Int(parent));
    var c1 := Comments.WithSlot(c0, Comments.ParentId, Comments.Trimmed(Comments.Int(parent)));
    Comments.SetNamed(c1, Comments.PostId, Comments.Int(post));
    var c2 := Comments.WithSlot(c1, Comments.PostId, Comments.Trimmed(Comments.Int(post)));
    Comments.SetNamed(c2, Comments.Ip, Comments.Str(ip));
    var c3 := Comments.WithSlot(c2, Comments.Ip, Comments.Trimmed(Comments.Str(ip)));
    Comments.SetNamed(c3, Comments.Username, Comments.Str(username));
    var c4 := Comments.WithSlot(c3, Comments.Username, Comments.Trimmed(Comments.Str(username)));
    Comments.SetNamed(c4, Comments.Message, Comments.Str(message));
  }

  /** What `add` binds from such an object: both integers as given, the ip
      trimmed, and the username and message trimmed and then sanitised. */
  lemma ComposedDraft(parent: int, post: int, ip: string, username: string, message: string,
                      sanitize: string -> string)
    ensures DraftOf(Composed(parent, post, ip, username, message, sanitize))
         == Draft(parent, post, sanitize(Strings.Trim(username)), sanitize(Strings.Trim(message)), Strings.Trim(ip))
  {
    AssignedHolds(parent, post, ip, username, message);
    var c := Composed(parent, post, ip, username, message, sanitize);
    DraftOfReads(c);
    IntPropertyReadsBack(parent);
    IntPropertyReadsBack(post);
  }

  /** The sample session's table: the page's two comment objects, added one
      after the other.  Both carry the client address `ip`. */
  function SampleSession(ip: string, sanitize: string -> string, now1: int, now2: int): Table {
    Add(Add(Created(), DraftOf(Composed(0, 2, ip, "Ipsum of Lorem", "First message", sanitize)), now1),
        DraftOf(Composed(1, 2, ip, "Lorem of Ipsum", "Reply to first message", sanitize)), now2)
  }

  /** The sample page: the first comment is stored under id 1 and the reply
      under id 2, and the thread of post 2 holds the first comment under key
      1 with the reply nested under it, under key 2. */
  lemma SampleThread(ip: string, sanitize: string -> string, now1: int, now2: int, limit: int)
    ensures var t := SampleSession(ip, sanitize, now1, now2);
            var r := FetchThread(t, 2, limit);
            && |t.rows| == 2 && t.rows[0].id == 1 && t.rows[1].id == 2
            && r.Some?
            && Thread.At(r.value, [1]).Some?
            && Thread.At(r.value, [1]).value.fields == Fetched(t.rows[0])
            && Thread.At(r.value, [1, 2]).Some?
            && Thread.At(r.value, [1, 2]).value.fields == Fetched(t.rows[1])
  {
    var a := DraftOf(Composed(0, 2, ip, "Ipsum of Lorem", "First message", sanitize));
    var b := DraftOf(Composed(1, 2, ip, "Lorem of Ipsum", "Reply to first message", sanitize));
    ComposedDraft(0, 2, ip, "Ipsum of Lorem", "First message", sanitize);
    ComposedDraft(1, 2, ip, "Lorem of Ipsum", "Reply to first message", sanitize);
    SampleTable(a, b, now1, now2);
    SessionThread(a, b, now1, now2, limit);
  }

  /** On the sample session with limit 0, `fetch_thread` as written still
      returns both comments, while the documented behaviour returns an
      empty thread. */
  lemma SampleLimitZero(ip: string, sanitize: string -> string, now1: int, now2: int)
    ensures var t := SampleSession(ip, sanitize, now1, now2);
            && Thread.At(FetchThread(t, 2, 0).value, [1, 2]).Some?
            && FetchThreadLimited(t, 2, 0) == Some([])
  {
    SampleThread(ip, sanitize, now1, now2, 0);
    var t := SampleSession(ip, sanitize, now1, now2);
    assert FetchByPost(t, 2, 0) == [];
  }
}

=== FILE: strings.dfy ===
/**
 * The string operations PHP performs implicitly on comment fields: `trim`
 * with its default character list, the decimal rendering of integers used
 * by string conversion and concatenation, and joining with a separator.
 */
module Strings {

  /** The characters PHP's `trim` strips by default: space, tab, newline,
      carriage return, NUL and vertical tab. */
  predicate IsSpace(c: char) {
    c == ' ' || c == '\t' || c == '\n' || c == '\r' || c == '\0' || c == '\U{000B}'
  }

  ghost predicate AllSpace(s: string) {
    forall i :: 0 <= i < |s| ==> IsSpace(s[i])
  }

  /** Neither the first nor the last character is one `trim` strips. */
  predicate Tight(s: string) {
    |s| == 0 || (!IsSpace(s[0]) && !IsSpace(s[|s| - 1]))
  }

  /** `s` is `r` surrounded by `a` strippable characters on the left and
      only strippable characters on the right. */
  ghost predicate Padded(s: string, r: string, a: int) {
    && 0 <= a
    && a + |r| <= |s|
    && s[a..a + |r|] == r
    && AllSpace(s[..a])
    && AllSpace(s[a + |r|..])
  }

  function TrimLeft(s: string): (r: string)
    ensures |r| <= |s|
    ensures r == s[|s| - |r|..]
    ensures AllSpace(s[..|s| - |r|])
    ensures |r| == 0 || !IsSpace(r[0])
  {
    if |s| > 0 && IsSpace(s[0]) then TrimLeft(s[1..]) else s
  }

  function TrimRight(s: string): (r: string)
    ensures |r| <= |s|
    ensures r == s[..|r|]
    ensures AllSpace(s[|r|..])
    ensures |r| == 0 || !IsSpace(r[|r| - 1])
  {
    if |s| > 0 && IsSpace(s[|s| - 1]) then TrimRight(s[..|s| - 1]) else s
  }

  /** PHP `trim($s)`: strip the default characters from both ends. */
  function Trim(s: string): (r: string)
    ensures Tight(r)
    ensures Padded(s, r, |s| - |TrimLeft(s)|)
  {
    var l := TrimLeft(s);
    TrimPadded(s, l, TrimRight(l));
    TrimRight(l)
  }

  lemma TrimPadded(s: string, l: string, r: string)
    requires |l| <= |s| && l == s[|s| - |l|..] && AllSpace(s[..|s| - |l|])
    requires |r| <= |l| && r == l[..|r|] && AllSpace(l[|r|..])
    ensures Padded(s, r, |s| - |l|)
  {
    var k := |s| - |l|;
    assert s[k..k + |r|] == r;
    assert s[k + |r|..] == l[|r|..];
  }

  lemma {:induction false} TrimLeftAllSpace(s: string)
    requires AllSpace(s)
    ensures TrimLeft(s) == []
    decreases |s|
  {
    if |s| > 0 {
      TrimLeftAllSpace(s[1..]);
    }
  }

  lemma {:induction false} TrimLeftAt(s: string, a: nat)
    requires a < |s| && AllSpace(s[..a]) && !IsSpace(s[a])
    ensures TrimLeft(s) == s[a..]
    decreases a
  {
    if a > 0 {
      assert s[..a][0] == s[0];
      assert s[1..][..a - 1] == s[1..a];
      assert forall i :: 0 <= i < a - 1 ==> s[1..a][i] == s[..a][i + 1];
      TrimLeftAt(s[1..], a - 1);
      assert s[1..][a - 1..] == s[a..];
    }
  }

  lemma {:induction false} TrimRightAt(s: string, b: nat)
    requires 0 < b <= |s| && AllSpace(s[b..]) && !IsSpace(s[b - 1])
    ensures TrimRight(s) == s[..b]
    decreases |s| - b
  {
    if b < |s| {
      assert s[b..][|s| - 1 - b] == s[|s| - 1];
      var t := s[..|s| - 1];
      assert t[b..] == s[b..|s| - 1];
      assert forall i :: 0 <= i < |s| - 1 - b ==> t[b..][i] == s[b..][i];
      TrimRightAt(t, b);
      assert t[..b] == s[..b];
    }
  }

  /** Trimming is determined by the padding: any tight core of `s` whose
      surroundings are strippable is what `trim` returns. */
  lemma TrimUnique(s: string, r: string, a: int)
    requires Padded(s, r, a) && Tight(r)
    ensures Trim(s) == r
  {
    if |r| > 0 {
      TrimUniqueCore(s, r, a);
    } else {
      TrimUniqueEmpty(s, a);
    }
  }

  lemma TrimUniqueCore(s: string, r: string, a: int)
    requires Padded(s, r, a) && Tight(r) && |r| > 0
    ensures Trim(s) == r
  {
    assert s[a] == r[0];
    TrimLeftAt(s, a);
    var l := s[a..];
    assert l[|r|..] == s[a + |r|..];
    assert l[|r| - 1] == r[|r| - 1];
    TrimRightAt(l, |r|);
    assert l[..|r|] == r;
  }

  lemma TrimUniqueEmpty(s: string, a: int)
    requires Padded(s, [], a)
    ensures Trim(s) == []
  {
    assert AllSpace(s) by {
      forall i | 0 <= i < |s| ensures IsSpace(s[i]) {
        if i < a { assert s[..a][i] == s[i]; } else { assert s[a..][i - a] == s[i]; }
      }
    }
    TrimLeftAllSpace(s);
  }

  /** Trimming twice changes nothing more. */
  lemma TrimIdempotent(s: string)
    ensures Trim(Trim(s)) == Trim(s)
  {
    var r := Trim(s);
    assert Padded(r, r, 0) by {
      assert r[..0] == [];
      assert r[|r|..] == [];
      assert r[0..|r|] == r;
    }
    TrimUnique(r, r, 0);
  }

  /** Decimal digit `d` as a character. */
  function DigitChar(d: int): (c: char)
    requires 0 <= d < 10
    ensures '0' <= c <= '9'
  {
    "0123456789"[d]
  }

  /** The value of a decimal digit character. */
  function DigitValue(c: char): int {
    if '0' <= c <= '9' then c as int - '0' as int else 0
  }

  predicate IsDigit(c: char) {
    '0' <= c <= '9'
  }

  /** Decimal notation of a natural number, without leading zeros. */
  function NatToString(n: nat): (r: string)
    ensures |r| > 0
    ensures forall i :: 0 <= i < |r| ==> IsDigit(r[i])
    ensures |r| > 1 ==> r[0] != '0'
    decreases n
  {
    if n < 10 then [DigitChar(n)] else NatToString(n / 10) + [DigitChar(n % 10)]
  }

  /** PHP's conversion of an integer to a string: an optional minus sign
      followed by the decimal digits. */
  function IntToString(i: int): (r: string)
    ensures |r| > 0
    ensures (r[0] == '-') <==> i < 0
    ensures forall k :: 0 < k < |r| ==> IsDigit(r[k])
    ensures Tight(r)
    ensures i >= 0 && |r| > 1 ==> r[0] != '0'
    ensures i < 0 ==> |r| > 1 && r[1] != '0'
  {
    if i < 0 then "-" + NatToString(-i) else NatToString(i)
  }

  /** Reads back a string of decimal digits. */
  function ParseNat(s: string): nat
    decreases |s|
  {
    if |s| == 0 then 0 else ParseNat(s[..|s| - 1]) * 10 + (if IsDigit(s[|s| - 1]) then DigitValue(s[|s| - 1]) else 0)
  }

  /** Reads back an optionally signed decimal string. */
  function ParseInt(s: string): int {
    if |s| > 0 && s[0] == '-' then -(ParseNat(s[1..]) as int) else ParseNat(s)
  }

  lemma {:induction false} NatRoundTrip(n: nat)
    ensures ParseNat(NatToString(n)) == n
    decreases n
  {
    var s := NatToString(n);
    if n < 10 {
      assert s[..0] == [];
    } else {
      NatRoundTrip(n / 10);
      assert s[..|s| - 1] == NatToString(n / 10);
      assert s[|s| - 1] == DigitChar(n % 10);
    }
  }

  /** The integer rendering is lossless: the number can be read back. */
  lemma IntRoundTrip(i: int)
    ensures ParseInt(IntToString(i)) == i
  {
    var s := IntToString(i);
    if i < 0 {
      assert s == "-" + NatToString(-i);
      assert s[1..] == NatToString(-i);
      NatRoundTrip(-i);
      assert ParseInt(s) == -(ParseNat(s[1..]) as int);
    } else {
      assert s == NatToString(i);
      NatRoundTrip(i);
      assert s[0] != '-' by {
        assert IsDigit(s[0]);
      }
    }
  }

  /** A tight string is left alone by `trim`. */
  lemma TrimTight(s: string)
    requires Tight(s)
    ensures Trim(s) == s
  {
    assert Padded(s, s, 0) by {
      assert s[..0] == [];
      assert s[|s|..] == [];
      assert s[0..|s|] == s;
    }
    TrimUnique(s, s, 0);
  }

  /** `parts` joined with `sep` between consecutive elements (PHP `implode`). */
  function Join(parts: seq<string>, sep: string): string
    decreases |parts|
  {
    if |parts| == 0 then ""
    else if |parts| == 1 then parts[0]
    else Join(parts[..|parts| - 1], sep) + sep + parts[|parts| - 1]
  }

  function SumLengths(parts: seq<string>): nat
    decreases |parts|
  {
    if |parts| == 0 then 0 else SumLengths(parts[..|parts| - 1]) + |parts[|parts| - 1]|
  }

  /** A joined string holds every part plus one separator between each pair. */
  lemma {:induction false} JoinLength(parts: seq<string>, sep: string)
    requires |parts| > 0
    ensures |Join(parts, sep)| == SumLengths(parts) + (|parts| - 1) * |sep|
    decreases |parts|
  {
    var n := |parts|;
    if n > 1 {
      var init := parts[..n - 1];
      JoinLength(init, sep);
      assert Join(parts, sep) == Join(init, sep) + sep + parts[n - 1];
      assert SumLengths(parts) == SumLengths(init) + |parts[n - 1]|;
      assert (n - 2) * |sep| + |sep| == (n - 1) * |sep|;
    }
  }

  /** Joining one more part appends a separator and that part. */
  lemma JoinStep(parts: seq<string>, k: nat, sep: string)
    requires 1 < k <= |parts|
    ensures Join(parts[..k], sep) == Join(parts[..k - 1], sep) + sep + parts[k - 1]
  {
    assert parts[..k][..k - 1] == parts[..k - 1];
  }
}

=== FILE: thread.dfy ===
/**
 * `build_thread`: turns a flat, ordered list of comments into a tree keyed
 * by comment id.  At each level it keeps, in list order, the comments whose
 * `parent_id` equals the current target, and for each one recurses with
 * that comment's id as the new target, attaching the result as `children`
 * only when it is non-empty.  The root call uses target 0.
 *
 * The PHP recursion has no bound and does not terminate on some inputs (a
 * comment with id 0 at the root, for one).  The model carries a recursion
 * budget `fuel`; `None` means only that the budget ran out.  Endless
 * recursion is shown for the case of `RootIdZeroDiverges`, where no budget
 * suffices.
 */
module Thread {
  import opened Wrappers
  import opened Rows

  /** One entry of the thread array: the comment's `toArray()` fields and its
      replies.  `children` stays `None` (the `null` that `toArray` put there)
      when the comment has no replies. */
  datatype Node = Node(fields: Row, children: Option<seq<(int, Node)>>)

  /** A PHP array keyed by comment id, in insertion order. */
  type Level = seq<(int, Node)>

  /** No two rows share an id. */
  ghost predicate DistinctIds(cs: seq<Row>) {
    forall i, j :: 0 <= i < j < |cs| ==> cs[i].id != cs[j].id
  }

  /** Ids as the store hands them out: distinct and never 0. */
  ghost predicate WellKeyed(cs: seq<Row>) {
    DistinctIds(cs) && forall i :: 0 <= i < |cs| ==> cs[i].id != 0
  }

  /** `$th[$k] = $n`: an existing key keeps its place and gets the new
      value; a new key is appended. */
  function Put(th: Level, k: int, n: Node): (r: Level)
    ensures (forall i :: 0 <= i < |th| ==> th[i].0 != k) ==> r == th + [(k, n)]
    ensures forall i :: 0 <= i < |th| && th[i].0 == k ==> |r| == |th|
    decreases |th|
  {
    if |th| == 0 then [(k, n)]
    else if th[0].0 == k then th[0 := (k, n)]
    else [th[0]] + Put(th[1..], k, n)
  }

  /** Assigning an existing key replaces the value at its first place and
      leaves every other entry as it was. */
  lemma {:induction false} PutReplaces(th: Level, k: int, n: Node, i: nat)
    requires i < |th| && th[i].0 == k
    requires forall j :: 0 <= j < i ==> th[j].0 != k
    ensures Put(th, k, n) == th[i := (k, n)]
    decreases i
  {
    if i > 0 {
      PutReplaces(th[1..], k, n, i - 1);
      assert [th[0]] + th[1..][i - 1 := (k, n)] == th[i := (k, n)];
    }
  }

  /** `$th[$k]`: the entry under key `k`, if any. */
  function Find(th: Level, k: int): Option<Node>
    decreases |th|
  {
    if |th| == 0 then None
    else if th[0].0 == k then Some(th[0].1)
    else Find(th[1..], k)
  }

  /** The `children` slot: set only when the subtree is non-empty. */
  function ChildrenSlot(sub: Level): (r: Option<Level>)
    ensures r.None? <==> |sub| == 0
    ensures r.Some? ==> r.value == sub
  {
    if |sub| == 0 then None else Some(sub)
  }

  /** `build_thread($cs, $target)` with a recursion budget. */
  function Build(cs: seq<Row>, target: int, fuel: nat): Option<Level>
    decreases fuel, 0, 0
  {
    if fuel == 0 then None else Scan(cs, |cs|, target, fuel - 1)
  }

  /** The `foreach` of `build_thread` after its first `k` iterations. */
  function Scan(cs: seq<Row>, k: nat, target: int, fuel: nat): Option<Level>
    requires k <= |cs|
    decreases fuel, 1, k
  {
    if k == 0 then Some([])
    else
      match Scan(cs, k - 1, target, fuel)
      case None => None
      case Some(acc) =>
        var c := cs[k - 1];
        if c.parent_id != target then Some(acc)
        else
          match Build(cs, c.id, fuel)
          case None => None
          case Some(sub) => Some(Put(acc, c.id, Node(c, ChildrenSlot(sub))))
  }

  /** The whole thread: the root call with target 0, given one level of
      budget per comment plus one. */
  function ThreadOf(cs: seq<Row>): (r: Option<Level>)
    ensures WellKeyed(cs) ==> r.Some?
  {
    assert WellKeyed(cs) ==> Build(cs, 0, |cs| + 1).Some? by {
      if WellKeyed(cs) {
        BuildFinishes(cs, 0, [], |cs| + 1);
      }
    }
    Build(cs, 0, |cs| + 1)
  }

  /** `a` occurs in `b` in the same relative order. */
  ghost predicate Subsequence(a: seq<Row>, b: seq<Row>)
    decreases |b|
  {
    if |a| == 0 then true
    else if |b| == 0 then false
    else if a[|a| - 1] == b[|b| - 1] then Subsequence(a[..|a| - 1], b[..|b| - 1])
    else Subsequence(a, b[..|b| - 1])
  }

  /** The comments of `cs` whose `parent_id` is `t`, in list order. */
  function Replies(cs: seq<Row>, t: int): (r: seq<Row>)
    ensures forall x :: x in r ==> x.parent_id == t
    decreases |cs|
  {
    if |cs| == 0 then []
    else Replies(cs[..|cs| - 1], t) + (if cs[|cs| - 1].parent_id == t then [cs[|cs| - 1]] else [])
  }

  /** The replies are exactly the comments of the list with parent `t`, in
      the order of the list, and like the list they have distinct ids. */
  lemma {:induction false} RepliesExact(cs: seq<Row>, t: int)
    ensures forall x :: x in Replies(cs, t) <==> x in cs && x.parent_id == t
    ensures Subsequence(Replies(cs, t), cs)
    ensures DistinctIds(cs) ==> DistinctIds(Replies(cs, t))
    decreases |cs|
  {
    if |cs| > 0 {
      var init := cs[..|cs| - 1];
      var last := cs[|cs| - 1];
      var prev := Replies(init, t);
      var r := Replies(cs, t);
      RepliesExact(init, t);
      assert cs == init + [last];
      if last.parent_id == t {
        assert r == prev + [last];
        assert r[..|r| - 1] == prev;
        if DistinctIds(cs) {
          forall i, j | 0 <= i < j < |r| ensures r[i].id != r[j].id {
            if j == |r| - 1 {
              assert r[i] in init;
            } else {
              assert r[i] == prev[i] && r[j] == prev[j];
            }
          }
        }
      } else {
        assert r == prev;
        if |r| > 0 {
          assert r[|r| - 1] in r;
        }
      }
    }
  }

  /** The entry for comment `c` as the source builds it: keyed by `c`'s id,
      holding `c`, with `children` set exactly to the non-empty subtree
      built for target `c.id`. */
  ghost predicate Entry(cs: seq<Row>, e: (int, Node), c: Row, fuel: nat) {
    && e.0 == c.id
    && e.1.fields == c
    && Build(cs, c.id, fuel).Some?
    && e.1.children == ChildrenSlot(Build(cs, c.id, fuel).value)
  }

  /** Level `th` holds one entry per comment of `f`, in the same order. */
  ghost predicate Placed(cs: seq<Row>, th: Level, f: seq<Row>, fuel: nat) {
    |th| == |f| && forall i :: 0 <= i < |th| ==> Entry(cs, th[i], f[i], fuel)
  }

  lemma {:induction false} ScanShape(cs: seq<Row>, k: nat, t: int, fuel: nat)
    requires k <= |cs| && DistinctIds(cs) && Scan(cs, k, t, fuel).Some?
    ensures Placed(cs, Scan(cs, k, t, fuel).value, Replies(cs[..k], t), fuel)
    decreases k
  {
    if k > 0 {
      var acc := Scan(cs, k - 1, t, fuel).value;
      var r := Scan(cs, k, t, fuel).value;
      ScanShape(cs, k - 1, t, fuel);
      assert cs[..k][..k - 1] == cs[..k - 1];
      var c := cs[k - 1];
      var prev := Replies(cs[..k - 1], t);
      var now := Replies(cs[..k], t);
      if c.parent_id == t {
        var sub := Build(cs, c.id, fuel).value;
        assert now == prev + [c];
        forall i | 0 <= i < |acc| ensures acc[i].0 != c.id {
          assert Entry(cs, acc[i], prev[i], fuel);
          RepliesExact(cs[..k - 1], t);
          assert prev[i] in prev;
          assert prev[i] in cs[..k - 1];
        }
        assert r == acc + [(c.id, Node(c, ChildrenSlot(sub)))];
        forall i | 0 <= i < |r| ensures Entry(cs, r[i], now[i], fuel) {
          if i < |acc| {
            assert r[i] == acc[i] && now[i] == prev[i];
          }
        }
      } else {
        assert r == acc && now == prev;
      }
    }
  }

  /** One level of the thread: exactly the replies to the target, keyed by
      their ids, in list order, each with the subtree built for its own id. */
  lemma BuildShape(cs: seq<Row>, t: int, fuel: nat)
    requires DistinctIds(cs) && Build(cs, t, fuel).Some?
    ensures fuel >= 1
    ensures Placed(cs, Build(cs, t, fuel).value, Replies(cs, t), fuel - 1)
  {
    ScanShape(cs, |cs|, t, fuel - 1);
    assert cs[..|cs|] == cs;
  }

  lemma {:induction false} ScanSome(cs: seq<Row>, k: nat, t: int, fuel: nat)
    requires k <= |cs|
    requires forall j :: 0 <= j < k && cs[j].parent_id == t ==> Build(cs, cs[j].id, fuel).Some?
    ensures Scan(cs, k, t, fuel).Some?
    decreases k
  {
    if k > 0 {
      ScanSome(cs, k - 1, t, fuel);
    }
  }

  /** A larger budget never changes a finished result, so the result does
      not depend on the budget once it suffices. */
  lemma {:induction false} FuelMonotone(cs: seq<Row>, t: int, fuel: nat)
    requires Build(cs, t, fuel).Some?
    ensures Build(cs, t, fuel + 1) == Build(cs, t, fuel)
    decreases fuel, 0, 0
  {
    ScanMonotone(cs, |cs|, t, fuel - 1);
  }

  lemma {:induction false} ScanMonotone(cs: seq<Row>, k: nat, t: int, fuel: nat)
    requires k <= |cs| && Scan(cs, k, t, fuel).Some?
    ensures Scan(cs, k, t, fuel + 1) == Scan(cs, k, t, fuel)
    decreases fuel, 1, k
  {
    if k > 0 {
      ScanMonotone(cs, k - 1, t, fuel);
      var c := cs[k - 1];
      if c.parent_id == t {
        FuelMonotone(cs, c.id, fuel);
      }
    }
  }

  /** The parent id of the first row with id `v`. */
  function ParentOf(cs: seq<Row>, v: int): Option<int>
    decreases |cs|
  {
    if |cs| == 0 then None
    else if cs[0].id == v then Some(cs[0].parent_id)
    else ParentOf(cs[1..], v)
  }

  lemma {:induction false} ParentOfRow(cs: seq<Row>, j: nat)
    requires DistinctIds(cs) && j < |cs|
    ensures ParentOf(cs, cs[j].id) == Some(cs[j].parent_id)
    decreases j
  {
    if j > 0 {
      ParentOfRow(cs[1..], j - 1);
    }
  }

  lemma ParentOfMember(cs: seq<Row>, x: Row)
    requires DistinctIds(cs) && x in cs
    ensures ParentOf(cs, x.id) == Some(x.parent_id)
  {
    var j :| 0 <= j < |cs| && cs[j] == x;
    ParentOfRow(cs, j);
  }

  /** The ids of `cs`. */
  function IdSet(cs: seq<Row>): set<int> {
    set x | x in cs :: x.id
  }

  lemma {:induction false} ParentOfHasId(cs: seq<Row>, v: int)
    requires ParentOf(cs, v).Some?
    ensures v in IdSet(cs)
    decreases |cs|
  {
    if cs[0].id != v {
      ParentOfHasId(cs[1..], v);
      assert forall x :: x in cs[1..] ==> x in cs;
    }
  }

  /** `a` is the path of ids from the root down to `v`: empty when `v` is 0,
      otherwise ending in `v`, with `v` a non-zero id whose row's parent the
      rest of the path leads to. */
  ghost predicate IsChain(cs: seq<Row>, a: seq<int>, v: int)
    decreases |a|
  {
    if |a| == 0 then v == 0
    else
      && a[|a| - 1] == v
      && v != 0
      && ParentOf(cs, v).Some?
      && IsChain(cs, a[..|a| - 1], ParentOf(cs, v).value)
  }

  /** A chain is determined by where it ends. */
  lemma {:induction false} ChainUnique(cs: seq<Row>, a: seq<int>, b: seq<int>, v: int)
    requires IsChain(cs, a, v) && IsChain(cs, b, v)
    ensures a == b
    decreases |a|
  {
    if |a| > 0 {
      ChainUnique(cs, a[..|a| - 1], b[..|b| - 1], ParentOf(cs, v).value);
      assert a == a[..|a| - 1] + [v];
      assert b == b[..|b| - 1] + [v];
    }
  }

  lemma {:induction false} ChainIndexed(cs: seq<Row>, a: seq<int>, v: int, i: nat)
    requires IsChain(cs, a, v) && i < |a|
    ensures a[i] != 0
    ensures ParentOf(cs, a[i]) == Some(if i == 0 then 0 else a[i - 1])
    decreases |a|
  {
    var init := a[..|a| - 1];
    var u := ParentOf(cs, v).value;
    if i < |a| - 1 {
      ChainIndexed(cs, init, u, i);
    } else if |init| > 0 {
      assert init[|init| - 1] == u;
    }
  }

  /** A chain never repeats an id: a repeat would, step by step towards the
      root, force some row to have id 0. */
  lemma {:induction false} ChainNoRepeat(cs: seq<Row>, a: seq<int>, v: int, i: nat, j: nat)
    requires IsChain(cs, a, v) && i < j < |a|
    ensures a[i] != a[j]
    decreases i
  {
    ChainIndexed(cs, a, v, i);
    ChainIndexed(cs, a, v, j);
    ChainIndexed(cs, a, v, j - 1);
    if i > 0 {
      ChainNoRepeat(cs, a, v, i - 1, j - 1);
    }
  }

  lemma {:induction false} DistinctCard(a: seq<int>)
    requires forall i, j :: 0 <= i < j < |a| ==> a[i] != a[j]
    ensures |set x | x in a| == |a|
    decreases |a|
  {
    if |a| > 0 {
      var init := a[..|a| - 1];
      DistinctCard(init);
      assert (set x | x in a) == (set x | x in init) + {a[|a| - 1]};
      assert a[|a| - 1] !in (set x | x in init);
    }
  }

  lemma {:induction false} IdSetCard(cs: seq<Row>)
    ensures |IdSet(cs)| <= |cs|
    decreases |cs|
  {
    if |cs| > 0 {
      var init := cs[..|cs| - 1];
      IdSetCard(init);
      assert IdSet(cs) == IdSet(init) + {cs[|cs| - 1].id};
    }
  }

  lemma SubsetCard(a: set<int>, b: set<int>)
    requires a <= b
    ensures |a| <= |b|
  {
    assert a + b == b;
    assert a * b == a;
    assert a - b == {};
    assert |b - a| + |a| == |b|;
  }

  /** A chain is no longer than the list: its ids are distinct ids of rows. */
  lemma ChainBound(cs: seq<Row>, a: seq<int>, v: int)
    requires IsChain(cs, a, v)
    ensures |a| <= |cs|
  {
    forall i, j | 0 <= i < j < |a| ensures a[i] != a[j] {
      ChainNoRepeat(cs, a, v, i, j);
    }
    DistinctCard(a);
    forall x | x in a ensures x in IdSet(cs) {
      var i :| 0 <= i < |a| && a[i] == x;
      ChainIndexed(cs, a, v, i);
      ParentOfHasId(cs, x);
    }
    IdSetCard(cs);
    SubsetCard((set x | x in a), IdSet(cs));
  }

  /** With distinct non-zero ids, the recursion below a target that the
      root reaches along `anc` finishes within the remaining budget. */
  lemma {:induction false} BuildFinishes(cs: seq<Row>, t: int, anc: seq<int>, fuel: nat)
    requires WellKeyed(cs) && IsChain(cs, anc, t)
    requires fuel >= |cs| + 1 - |anc|
    ensures Build(cs, t, fuel).Some?
    decreases fuel
  {
    ChainBound(cs, anc, t);
    forall j | 0 <= j < |cs| && cs[j].parent_id == t
      ensures Build(cs, cs[j].id, fuel - 1).Some?
    {
      var a := anc + [cs[j].id];
      ParentOfRow(cs, j);
      assert a[..|a| - 1] == anc;
      BuildFinishes(cs, cs[j].id, a, fuel - 1);
    }
    ScanSome(cs, |cs|, t, fuel - 1);
  }

  /** With distinct non-zero ids `build_thread` terminates. */
  lemma ThreadFinishes(cs: seq<Row>)
    requires WellKeyed(cs)
    ensures ThreadOf(cs).Some?
  {
  }

  /** A comment with id 0 at the root makes the recursion target 0 again:
      no budget suffices. */
  lemma {:induction false} RootIdZeroDiverges(r: Row, fuel: nat)
    requires r.id == 0 && r.parent_id == 0
    ensures Build([r], 0, fuel).None?
    decreases fuel
  {
    if fuel > 0 {
      RootIdZeroDiverges(r, fuel - 1);
    }
  }

  /** The node reached from the top level by following the keys in `p`. */
  function At(th: Level, p: seq<int>): Option<Node>
    decreases |p|
  {
    if |p| == 0 then None
    else
      match Find(th, p[0])
      case None => None
      case Some(n) =>
        if |p| == 1 then Some(n)
        else
          match n.children
          case None => None
          case Some(sub) => At(sub, p[1..])
  }

  lemma {:induction false} FindHit(th: Level, k: int) returns (i: nat)
    requires Find(th, k).Some?
    ensures i < |th| && th[i].0 == k && th[i].1 == Find(th, k).value
    decreases |th|
  {
    if th[0].0 == k {
      i := 0;
    } else {
      var i' := FindHit(th[1..], k);
      i := i' + 1;
    }
  }

  lemma {:induction false} FindAt(th: Level, i: nat, k: int)
    requires i < |th| && th[i].0 == k
    requires forall j :: 0 <= j < i ==> th[j].0 != k
    ensures Find(th, k) == Some(th[i].1)
    decreases i
  {
    if i > 0 {
      FindAt(th[1..], i - 1, k);
    }
  }

  lemma {:induction false} AtSnoc(th: Level, p: seq<int>, k: int)
    requires |p| > 0 && At(th, p).Some? && At(th, p).value.children.Some?
    ensures At(th, p + [k]) == Find(At(th, p).value.children.value, k)
    decreases |p|
  {
    var n := Find(th, p[0]).value;
    if |p| > 1 {
      assert (p + [k])[1..] == p[1..] + [k];
      AtSnoc(n.children.value, p[1..], k);
    }
  }

  /** A path of one key reaches the entry under that key. */
  lemma AtOne(th: Level, p: seq<int>)
    requires |p| == 1
    ensures At(th, p) == Find(th, p[0])
  {
  }

  /** A longer path continues in the `children` of the entry under its first key. */
  lemma AtDescend(th: Level, p: seq<int>, sub: Level)
    requires |p| > 1 && Find(th, p[0]).Some? && Find(th, p[0]).value.children == Some(sub)
    ensures At(th, p) == At(sub, p[1..])
  {
  }

  /** A longer path goes through the `children` of the entry under its first key. */
  lemma AtStep(th: Level, p: seq<int>)
    requires |p| > 1 && At(th, p).Some?
    ensures Find(th, p[0]).Some? && Find(th, p[0]).value.children.Some?
    ensures At(th, p) == At(Find(th, p[0]).value.children.value, p[1..])
  {
  }

  /** An entry of a built level: a reply to the target, keyed by its id,
      whose `children` are the subtree built for that id. */
  lemma {:induction false} TopEntry(cs: seq<Row>, t: int, fuel: nat, th: Level, k: int) returns (x: Row)
    requires DistinctIds(cs) && Build(cs, t, fuel) == Some(th) && Find(th, k).Some?
    ensures fuel >= 1
    ensures x in cs && x.parent_id == t && x.id == k
    ensures Find(th, k).value.fields == x
    ensures Build(cs, k, fuel - 1).Some?
    ensures Find(th, k).value.children == ChildrenSlot(Build(cs, k, fuel - 1).value)
  {
    BuildShape(cs, t, fuel);
    var f := Replies(cs, t);
    var i := FindHit(th, k);
    x := f[i];
    assert Entry(cs, th[i], x, fuel - 1);
    RepliesExact(cs, t);
    assert x in f;
  }

  /** Where a node sits says what it is: the last key of its path is its id,
      it is a comment of the list, its parent is the target (at the top) or
      the node one step up, its `children` are the subtree built for its id,
      and its path is shorter than the budget. */
  lemma {:induction false} Located(cs: seq<Row>, t: int, fuel: nat, th: Level, p: seq<int>)
    requires DistinctIds(cs) && Build(cs, t, fuel) == Some(th) && At(th, p).Some?
    ensures 0 < |p| < fuel
    ensures p[|p| - 1] == At(th, p).value.fields.id
    ensures At(th, p).value.fields in cs
    ensures |p| == 1 ==> At(th, p).value.fields.parent_id == t
    ensures |p| > 1 ==> (At(th, p[..|p| - 1]).Some?
                         && At(th, p[..|p| - 1]).value.fields.id == At(th, p).value.fields.parent_id)
    ensures Build(cs, At(th, p).value.fields.id, fuel - |p|).Some?
    ensures At(th, p).value.children == ChildrenSlot(Build(cs, At(th, p).value.fields.id, fuel - |p|).value)
    decreases |p|
  {
    var x := TopEntry(cs, t, fuel, th, p[0]);
    if |p| == 1 {
      AtOne(th, p);
    } else {
      AtStep(th, p);
      var m := Find(th, p[0]).value;
      var sub := m.children.value;
      var q := p[1..];
      Located(cs, p[0], fuel - 1, sub, q);
      var up := p[..|p| - 1];
      if |q| > 1 {
        AtDescend(th, up, sub);
        assert up[1..] == q[..|q| - 1];
      } else {
        AtOne(th, up);
      }
    }
  }

  /** Following a node's path from the root retraces its ancestry: the keys
      of the path, after `anc`, form the chain of parent ids ending at it. */
  lemma {:induction false} PathIsChain(cs: seq<Row>, t: int, fuel: nat, th: Level, anc: seq<int>, p: seq<int>)
    requires WellKeyed(cs) && Build(cs, t, fuel) == Some(th) && IsChain(cs, anc, t)
    requires At(th, p).Some?
    ensures IsChain(cs, anc + p, At(th, p).value.fields.id)
    decreases |p|
  {
    var x := TopEntry(cs, t, fuel, th, p[0]);
    ParentOfMember(cs, x);
    var a := anc + [p[0]];
    assert a[..|a| - 1] == anc;
    assert IsChain(cs, a, p[0]);
    if |p| == 1 {
      AtOne(th, p);
      assert anc + p == a;
    } else {
      AtStep(th, p);
      var sub := Find(th, p[0]).value.children.value;
      PathIsChain(cs, p[0], fuel - 1, sub, a, p[1..]);
      assert a + p[1..] == anc + p;
    }
  }

  /** No comment appears at more than one position: two paths reaching
      nodes with the same id are the same path. */
  lemma AtMostOnce(cs: seq<Row>, th: Level, p1: seq<int>, p2: seq<int>)
    requires WellKeyed(cs) && ThreadOf(cs) == Some(th)
    requires At(th, p1).Some? && At(th, p2).Some?
    requires At(th, p1).value.fields.id == At(th, p2).value.fields.id
    ensures p1 == p2
  {
    PathIsChain(cs, 0, |cs| + 1, th, [], p1);
    PathIsChain(cs, 0, |cs| + 1, th, [], p2);
    assert [] + p1 == p1 && [] + p2 == p2;
    ChainUnique(cs, p1, p2, At(th, p1).value.fields.id);
  }

  /** Every node holds a comment of the list, and the tree is no deeper
      than the list is long. */
  lemma DepthBound(cs: seq<Row>, th: Level, p: seq<int>)
    requires DistinctIds(cs) && ThreadOf(cs) == Some(th) && At(th, p).Some?
    ensures At(th, p).value.fields in cs
    ensures |p| <= |cs|
  {
    Located(cs, 0, |cs| + 1, th, p);
  }

  /** A comment whose parent id is neither 0 nor the id of a node of the
      tree appears nowhere in it: orphans and comments on cycles are left out. */
  lemma OrphanAbsent(cs: seq<Row>, th: Level, x: Row, p: seq<int>)
    requires DistinctIds(cs) && ThreadOf(cs) == Some(th)
    requires x.parent_id != 0
    requires forall q :: At(th, q).Some? ==> At(th, q).value.fields.id != x.parent_id
    ensures At(th, p).None? || At(th, p).value.fields != x
  {
    if At(th, p).Some? {
      Located(cs, 0, |cs| + 1, th, p);
    }
  }

  /** A comment that names itself as parent is never placed. */
  lemma SelfParentAbsent(cs: seq<Row>, th: Level, x: Row, p: seq<int>)
    requires WellKeyed(cs) && ThreadOf(cs) == Some(th)
    requires x in cs && x.parent_id == x.id
    ensures At(th, p).None? || At(th, p).value.fields != x
  {
    if At(th, p).Some? && At(th, p).value.fields == x {
      Located(cs, 0, |cs| + 1, th, p);
      var j :| 0 <= j < |cs| && cs[j] == x;
      if |p| > 1 {
        AtMostOnce(cs, th, p, p[..|p| - 1]);
      }
    }
  }

  /** Every comment with parent id 0 is a top-level entry, under its id. */
  lemma RootIsPlaced(cs: seq<Row>, th: Level, x: Row)
    requires DistinctIds(cs) && ThreadOf(cs) == Some(th)
    requires x in cs && x.parent_id == 0
    ensures At(th, [x.id]).Some? && At(th, [x.id]).value.fields == x
  {
    var f := Replies(cs, 0);
    BuildShape(cs, 0, |cs| + 1);
    RepliesExact(cs, 0);
    assert x in f;
    var i :| 0 <= i < |f| && f[i] == x;
    assert Entry(cs, th[i], f[i], |cs|);
    forall j | 0 <= j < i ensures th[j].0 != x.id {
      assert Entry(cs, th[j], f[j], |cs|);
    }
    FindAt(th, i, x.id);
  }

  /** Every comment whose parent id is the id of a node of the tree sits in
      that node's `children`, under its own id. */
  lemma ReplyIsPlaced(cs: seq<Row>, th: Level, p: seq<int>, x: Row)
    requires DistinctIds(cs) && ThreadOf(cs) == Some(th) && At(th, p).Some?
    requires x in cs && x.parent_id == At(th, p).value.fields.id
    ensures At(th, p + [x.id]).Some? && At(th, p + [x.id]).value.fields == x
  {
    var fuel := |cs| + 1;
    Located(cs, 0, fuel, th, p);
    var m := At(th, p).value;
    var g := fuel - |p|;
    var sub := Build(cs, m.fields.id, g).value;
    BuildShape(cs, m.fields.id, g);
    var f := Replies(cs, m.fields.id);
    RepliesExact(cs, m.fields.id);
    assert x in f;
    var i :| 0 <= i < |f| && f[i] == x;
    assert Entry(cs, sub[i], f[i], g - 1);
    forall j | 0 <= j < i ensures sub[j].0 != x.id {
      assert Entry(cs, sub[j], f[j], g - 1);
    }
    FindAt(sub, i, x.id);
    AtSnoc(th, p, x.id);
  }

  /** A top-level comment and a reply to it: the reply sits one level down,
      under the path of the two ids. */
  lemma ReplyUnderRoot(cs: seq<Row>, th: Level, x: Row, y: Row)
    requires DistinctIds(cs) && ThreadOf(cs) == Some(th)
    requires x in cs && y in cs && x.parent_id == 0 && y.parent_id == x.id
    ensures At(th, [x.id]).Some? && At(th, [x.id]).value.fields == x
    ensures At(th, [x.id, y.id]).Some? && At(th, [x.id, y.id]).value.fields == y
  {
    RootIsPlaced(cs, th, x);
    ReplyIsPlaced(cs, th, [x.id], y);
    assert [x.id] + [y.id] == [x.id, y.id];
  }
}

=== FILE: wrappers.dfy ===
/** The optional value used for PHP's `null` results. */
module Wrappers {

  /** `None` stands for PHP `null`; `Some(v)` for a present value. */
  datatype Option<+T> = None | Some(value: T)
}
